=== FILE: README.md ===
# h annotation API: search queries, mutation rules and store hooks, in Dafny

This project models the policy core of the `h` annotation service's API layer:

- **Search queries** (`h/api/search.py`). `build_query` turns flat request
  parameters into an Elasticsearch query dict. It covers paging, sorting, the
  cross-field `any` clause, one `match` per remaining parameter and the
  `match_all` fallback. `nipsa_filter` wraps any query so that annotations
  carrying the NIPSA flag (`not_in_public_site_areas`) are hidden from everyone
  except their author. The per-user queries (`query_for_users_annotations`,
  `nipsad_annotations`, `not_nipsad_annotations`) are modelled too. A small
  evaluator for the query dialect gives these dicts a meaning. `term`, `not`,
  `bool` (`must` and `should`), `filtered` and `match_all` are decided by
  this evaluator, not by the search engine, whose `term` on analysed or
  multi-valued fields can behave differently. Full-text `match` and `multi_match` clauses are left to an oracle
  parameter.
- **Annotation mutation rules and views** (`h/api/views.py`):
  - protected-field stripping;
  - create, with the author, consumer and NIPSA flag forced;
  - update, with the admin check on permission changes, the shallow merge and
    anonymisation of deleted records;
  - the create, read, update and delete views.
  The views are transitions on a trace of collaborator calls (saved, removed,
  published). The model proves that every successful create, update and delete
  persists its record and then publishes exactly one event about it, and that a
  read publishes exactly one event and persists nothing.
- **Store-side helpers** (`h/api/store.py`):
  - the store's own `anonymize_deletes`;
  - the `after_request` hook, which rewrites the CORS header list and applies
    the endpoint and status rule that decides whether an event fires;
  - `Store.search_raw`'s hit-to-record transform;
  - `Store._invoke_subrequest`'s status cut-off.

Modules:

| file | module | contents |
|---|---|---|
| json.dfy | Json | JSON values, Python truthiness, `dict.get` and `[]`, exceptions as `Result` |
| query_eval.dfy | QueryDsl | the query clauses and the evaluator `Admits` |
| params.dfy | Params | the request parameter multidict (`pop`, `getall`, `del`) as a list of pairs |
| search.dfy | Search | `build_query`, `nipsa_filter` and the per-user queries |
| permissions.dfy | Permissions | removing a user from an annotation's permission lists |
| views.dfy | Views | mutation rules and CRUD views as trace transitions |
| store.dfy | Store | `anonymize_deletes`, `search_raw`, `_invoke_subrequest` |
| after_request.dfy | AfterRequest | the `after_request` hook |

Python exceptions are values: an operation returns `Ok(v)` or `Raise(fault)`,
where the fault is one of KeyError, TypeError, AttributeError, RuntimeError
(with its reason and status) or an HTTP error. Several inputs are parameters:
- the parsing done by `int()` (`parseInt`);
- the NIPSA list (a set of user ids);
- the authenticated user;
- the admin-permission decision;
- the full-text oracle.

## Model

| member | source | states |
|---|---|---|
| Search.ShouldClauses | h/api/search.py:67-71 | The visibility clauses always start with "not flagged". The author term on `user` follows if and only if the viewer id is non-empty. So there is one clause for an anonymous viewer and two otherwise. |
| Search.NipsaFilter | h/api/search.py:32-80 | Without a "query" key it raises KeyError. Otherwise the result has the same keys as the input. Every key but "query" keeps its value. "query" becomes a `filtered` clause whose filter is the `should` list and whose query is the original query, nested exactly once. |
| Search.FilterAdmitsVisible | h/api/search.py:65-75 | Under the evaluator, the `should` filter admits a document if and only if the document is not flagged, or the viewer id is non-empty and equals the document's `user`. This is the docstring's visibility policy. |
| Search.NipsaFilterAdmits | h/api/search.py:73-78 | The filtered query admits a document if and only if the document is visible to the viewer and the original query admits it. |
| Search.Count | h/api/search.py:107-119 | `from` and `size` are the parsed value when the parameter is present, parses as an integer and is non-negative. In every other case (missing, unparsable, negative) they are the default, 0 or 20. |
| Search.PopPaging | h/api/search.py:107-128 | The four successive `pop` calls (offset, limit, sort, order) each read the first value the caller's parameters hold for that key. Popping one key never disturbs the value another pop reads. The parameters left behind are exactly `Popped(params)`: the parameters with the first pair of each of the four keys removed, so every other key keeps all its values in order (Search.PoppedKeepsOtherKeys). |
| Search.PoppedKeepsOtherKeys | h/api/search.py:103-128 | Popping the paging and sorting keys leaves every other key's values untouched, in order. |
| Search.MustList | h/api/search.py:134-149 | The multi_match clause comes first when `any` has values. One `match` clause per leftover pair follows, in order. Every plain `match` clause names a leftover key. The list is `[match_all]` exactly when nothing else arose, so it is never empty. |
| Search.MustClauses | h/api/search.py:134-149 | If `any` is present, the first must-clause is the cross-field multi_match over exactly the five fields, with all `any` values in order. No must-clause is a `match` on `any`. The list is non-empty. |
| Search.MustClausesSingleValued | h/api/search.py:134-149 | When the paging and sorting keys occur at most once, the must-list is built from all `any` values and from the parameters left after deleting every reserved key. No `match` clause mentions offset, limit, sort, order or any. |
| Search.LeftoverSingleValued | h/api/search.py:105-146 | When the paging and sorting keys occur at most once, the pairs that become `match` clauses are the caller's pairs without the five reserved keys, in their original order. |
| Search.BuildQuery | h/api/search.py:83-151 | The result has exactly the keys from, size, sort and query. from and size follow the Count rule. sort is a one-entry list keyed by `sort` (default "updated") with `ignore_unmapped` true and `order` (default "desc"). query is the NIPSA-filtered `bool.must` of the must-list, i.e. the original wrapped by `nipsa_filter`. |
| Search.MustListAdmits | h/api/search.py:134-149 | The must-list admits a document if and only if the oracle accepts the `any` clause (when there is one) and every leftover `match` clause. With neither, every document is admitted. |
| Search.BuildQueryAdmits | h/api/search.py:83-151 | The built query admits a document if and only if the document is visible to the viewer and passes every must-clause. |
| Search.EmptySearchAdmitsVisible | h/api/search.py:145-151 | A search with only paging and sorting parameters matches everything. It then admits exactly the documents visible to the viewer. |
| Search.IndexQueryShape | h/api/search.py:180-187 | The index query starts at 0 and has 20 rows, sorted by `updated` descending. It admits exactly what the viewer may see. |
| Search.UserFilterAdmits | h/api/search.py:190-202 | A per-user filter query admits a document if and only if every clause of its must-list does. |
| Search.UsersAnnotationsAdmits | h/api/search.py:190-202 | `query_for_users_annotations` (Search.QueryForUsersAnnotations, a filter-only `bool.must` of the one `user` term) admits exactly the documents whose `user` is the given id. |
| Search.NipsadAdmits | h/api/search.py:205-210 | `nipsad_annotations` (Search.NipsadAnnotations, the user query with the flag term appended to its must-list) admits exactly the user's flagged documents. |
| Search.NotNipsadAdmits | h/api/search.py:213-218 | `not_nipsad_annotations` (Search.NotNipsadAnnotations, the user query with the negated flag term appended) admits exactly the user's unflagged documents. |
| Search.NipsadPartition | h/api/search.py:190-218 | Together the two per-user queries admit exactly the user's documents, and no document is admitted by both. |
| Params.FirstIsHeadOfGetAll | h/api/search.py:108-128 | What `pop(key)` reads is the first of all the values `getall(key)` returns, and it is absent exactly when there are none. |
| Params.PopFirstGetAll | h/api/search.py:108-128 | A `pop(key)` removes exactly the first value of that key, and other keys' values are unchanged. |
| Params.FirstAfterPop | h/api/search.py:108-128 | Popping one key does not change what a later pop of a different key returns. |
| Params.DelKeys | h/api/search.py:143 | After `del`, no pair with a deleted key remains. |
| Params.DelKeysGetAll | h/api/search.py:143 | `del params[key]` removes every value of the deleted keys and leaves the other keys' values in order. |
| Views.StripProtected | h/api/views.py:221-223 | After stripping, a key is present if and only if the payload had it and it is not one of created, updated, user, consumer, id. Surviving keys keep their values. |
| Views.CreateAnnotation | h/api/views.py:218-240 | `user` and `consumer` are the authenticated user's id and consumer key, and no other protected field is present. The NIPSA flag is true when the author is on the NIPSA list. Otherwise the flag is present exactly when the payload had it. Every other non-protected payload key is carried over unchanged, and nothing else is added. |
| Views.CreateIgnoresProtected | h/api/views.py:221-229 | Two payloads that differ only in protected fields create the same annotation, so no client-supplied protected value survives. |
| Views.UpdateAnnotation | h/api/views.py:243-265 | The update is refused with the 401 "Not authorized to change annotation permissions." if and only if the stripped payload carries `permissions` different from the current ones (absent counts as `{}`) and the caller is not admin. An update that is not refused and leaves the record not flagged deleted always succeeds: it overwrites exactly the payload's non-protected keys and keeps every other prior value. When the merged record is flagged deleted, the anonymiser as written runs. The update raises KeyError("user") if and only if the stored record has no author. It succeeds if and only if the record has an author and its permission lists can be iterated. On success `user` is gone, each permission list loses exactly the roles equal to the stored author, and every other merged field is kept. |
| Views.SamePermissionsAllowed | h/api/views.py:249-255 | Resending the current permissions is never refused, even without admin. |
| Views.AdminNeverRefused | h/api/views.py:253-255 | An admin's update is never refused on permission grounds. |
| Views.UpdateAnnotationIntended | h/api/views.py:243-265 | The update with `pop('user', None)`. It has the same refusal rule, never raises KeyError, and succeeds whenever it is not refused and the merged record is either not deleted or has iterable permission lists. A deleted record loses its `user` key. |
| Views.UpdateIntendedAgrees | h/api/views.py:257-272 | The corrected update equals the one as written on every stored record that has an author. Where they differ, the stored record has no author, the merged record is flagged deleted, and the one as written raises KeyError("user"). |
| Views.UpdateOfAnonymisedCrashes | h/api/views.py:158-164 | Updating `{"id": "a1", "deleted": true}` (no author) with `{"text": "x"}` crashes the update view with KeyError("user"), which is not the RuntimeError the view catches, and no save or event happens. The corrected update saves it. |
| Views.AnonymizeDeletesAsWritten | h/api/views.py:268-282 | The anonymiser as written. It raises KeyError("user") if and only if the record has no `user`. It succeeds if and only if there is a `user` and the permission lists can be iterated. On success `user` is gone, the action keys are unchanged, each list loses exactly the roles equal to the author, and every other field is unchanged. |
| Views.AnonymizeDeletesAsWrittenNotRepeatable | h/api/views.py:271-272 | For every record the as-written anonymiser accepts, running it again on its output raises KeyError("user"), so anonymising an already anonymised deleted record fails. |
| Views.AnonymizeDeletes | h/api/views.py:268-282 | The corrected anonymiser. The `user` key is gone and the action keys are unchanged. Each permission list is the old one minus exactly the roles equal to the old author, in order. Every other field is unchanged. It succeeds if and only if there is no `permissions` or it is a dict whose role containers are lists, strings or dicts of at most one key, so it fails only on malformed `permissions`, never with KeyError. |
| Views.AnonymizeDeletesAgrees | h/api/views.py:268-282 | On every record that has `user`, the corrected anonymiser and the as-written one give the same result. |
| Views.AnonymizeDeletesIdempotent | h/api/views.py:268-282 | Running the corrected anonymiser on its own output changes nothing, provided no permission list held null. |
| Views.ApiError | h/api/views.py:197-203 | The failure body has exactly the keys `status` (= "failure") and `reason`. |
| Views.PayloadFault | h/api/views.py:221-223 | A JSON payload that is not an object fails when its protected fields are popped: a list with TypeError, anything else with AttributeError. |
| Views.CreateView | h/api/views.py:107-127 | A missing or invalid JSON body gives 400 "No JSON payload sent. Annotation not created." with no call made. A 200 happens if and only if the body is an object and there is a user. It returns the created annotation after saving it and publishing one `create` event about it. A JSON body that is not an object crashes the view while its protected fields are popped: TypeError for a list, AttributeError otherwise. A create with no user crashes with AttributeError on `user.id`. Any failure leaves the trace unchanged. |
| Views.ReadView | h/api/views.py:130-138 | A read returns the stored record and publishes exactly one `read` event, with no save. |
| Views.UpdateView | h/api/views.py:141-170 | A missing body gives 400, and a refused permission change gives 401 with the refusal reason. Both leave the trace unchanged, and these are the only non-200 replies. A JSON body that is not an object crashes the view (TypeError for a list, AttributeError otherwise). Any other exception from the mutation rules, such as the KeyError for a deleted record without an author, escapes the view as a crash with no call made. A 200 happens if and only if the mutation rules succeed. It returns the updated record after a save and one `update` event. |
| Views.DeleteView | h/api/views.py:173-188 | A delete returns exactly `{"id": <id>, "deleted": true}`. It removes the record and then publishes one `delete` event carrying the pre-deletion record. |
| Views.CreateKeepsProtocol | h/api/views.py:120-124 | Whatever the outcome, create keeps the trace a sequence of whole persist-then-publish transactions. |
| Views.ReadKeepsProtocol | h/api/views.py:133-136 | Read keeps the trace a sequence of whole transactions. |
| Views.UpdateKeepsProtocol | h/api/views.py:157-167 | Update keeps the trace a sequence of whole transactions. |
| Views.DeleteKeepsProtocol | h/api/views.py:176-182 | Delete keeps the trace a sequence of whole transactions. |
| Views.PersistThenPublish | h/api/views.py:107-194 | In any trace the views produce, every save or removal is immediately followed by the event about the same record, and the trace ends with an event. |
| Permissions.StripUser | h/api/store.py:77-84 | Stripping succeeds if and only if every role container can be iterated. A container that cannot be iterated raises TypeError. A list, a string (one role per character) or a dict of at most one key (its key) can be iterated. On success, the action keys are unchanged and each list is its roles minus the user. |
| Permissions.RemoveUser | h/api/views.py:274-282 | Without `permissions` the record is unchanged. A non-dict `permissions` raises AttributeError. Otherwise only `permissions` changes: same actions, each list filtered. |
| Permissions.WithoutMultiset | h/api/views.py:277-281 | The filter removes every occurrence of the user and keeps every other role as many times as it occurred. |
| Permissions.WithoutAppend | h/api/views.py:277-281 | The filter works piecewise over a concatenation, so kept roles keep their relative order. |
| Permissions.WithoutMembers | h/api/store.py:79-83 | A role survives the filter if and only if it was in the list and is not the user. |
| Permissions.WithoutIdempotent | h/api/store.py:79-83 | Filtering twice by the same user equals filtering once. |
| Store.AnonymizeDeletes | h/api/store.py:71-84 | A record whose `deleted` is not truthy is returned unchanged. A deleted record is anonymised successfully if and only if there is no `permissions` or it is a dict whose role containers are lists, strings or dicts of at most one key. For a deleted record, the key set never changes (an absent `user` stays absent) and a truthy `user` becomes "". Each permission list loses exactly the roles equal to the original author ("" when absent), and every other field is unchanged. |
| Store.AuthorAfter | h/api/store.py:73-75 | After the hook the author of a deleted record is falsy: the original falsy author, or "". |
| Store.AnonymizeDeletesIdempotent | h/api/store.py:71-84 | Applying the hook twice equals applying it once, provided no permission list contains "" and no dict used as one has the key "". |
| Store.HitRecord | h/api/store.py:56-59 | A hit yields a record if and only if it is a dict with `_id` and a dict `_source`. The record is the source with `id` set to `_id`. A missing `_id` is reported before a missing `_source`. |
| Store.HitRecords | h/api/store.py:55-60 | The transform succeeds if and only if every hit is good. It then gives one record per hit, in hit order. On failure, the exception is the one raised by the first bad hit. |
| Store.SearchRaw | h/api/store.py:48-60 | A decoded payload without `hits` raises KeyError("hits"). When `hits.hits` is a list, the result is the per-hit transform of that list. |
| Store.InvokeSubrequest | h/api/store.py:62-68 | A subrequest is raised as an HTTP error of its own status if and only if the status exceeds 400. Otherwise it is returned unchanged. |
| Store.SubrequestCutOff | h/api/store.py:66-67 | 400 is returned and 401 is raised. Whenever a status is returned, every smaller status is returned too. |
| AfterRequest.JoinSplit | h/api/store.py:107 | Joining the comma-split pieces with a comma gives the header value back. |
| AfterRequest.SplitJoin | h/api/store.py:107-109 | Splitting a join of comma-free pieces gives the pieces back. |
| AfterRequest.StripIdempotent | h/api/store.py:107 | Trimming an already trimmed entry changes nothing. |
| AfterRequest.HeaderRewriteEntries | h/api/store.py:105-110 | Reading the header AfterRequest.HeaderRewrite produces (the trimmed comma-split entries plus `X-Client-ID`, joined with ", ") back gives the original entries, trimmed and in order, followed by `X-Client-ID`. |
| AfterRequest.EmptyHeaderRewrite | h/api/store.py:106-109 | Under AfterRequest.HeaderRewrite, an absent or empty header becomes ", X-Client-ID". |
| AfterRequest.Hook | h/api/store.py:104-128 | For OPTIONS, the header is rewritten and no event fires. Otherwise the header is untouched. An event fires if and only if the status is in [200, 300) and the endpoint names a store annotation action. The event carries that action, with the request body for `delete` and the response body otherwise. |
| AfterRequest.EndpointAction | h/api/store.py:114-118 | The `re.match(r'^store\.(\w+)_annotation$', endpoint)` rule: an action found is always a non-empty run of word characters. |
| AfterRequest.EndpointActionOf | h/api/store.py:114-118 | Every endpoint `store.<word>_annotation`, with one or more word characters, yields that word as the action. A trailing newline, which `$` admits, changes nothing. |
| AfterRequest.EndpointActionSound | h/api/store.py:114-118 | Conversely, an endpoint that yields an action is exactly `store.<action>_annotation`, possibly followed by one newline. |
| AfterRequest.EventData | h/api/store.py:113-127 | A successful non-OPTIONS call to a store annotation endpoint publishes exactly one event with the endpoint's action. A delete carries the request body; any other action carries the response body. |

## Left out

- Elasticsearch I/O is not modelled: `_es_client`, `scan`, `bulk`, and the two index calls in `search` (rows and total). `index` is modelled only as the query it builds.
- Persistence, id assignment and timestamps: `save` and `delete` appear only as trace steps.
- `get_user` and `request.has_permission` are inputs to the views, not modelled code.
- NIPSA membership (h/api/nipsa/models.py, a database table) is a set of user ids passed to create. This assumes a working lookup: `_nipsa` (h/api/views.py:212) calls `nipsa_models.user_read`, which h/api/nipsa/models.py does not define (it has only `NipsaUser` with `get_by_id` and `all`), so as the text reads every create would raise AttributeError there.
- JSON decoding (`request.json_body`, `json.loads`) is not modelled. A body that fails to decode is `None`.
- `lib.wrap_annotation`, the construction of `AnnotationEvent` and the registry's `notify` are reduced to the published step. Subscribers are not modelled.
- Pyramid and Flask wiring is not modelled: `api_config`, the descriptor and token views, `before_request`, `store_from_settings`, `create_db`, `delete_db`, `includeme`, and the URL building in `Store.read` and `Store.search`. `Store.create`, `update` and `delete` only raise NotImplementedError.
- Python's `int()` is not modelled. It is an oracle `parseInt`, so Search.Count says nothing about which strings parse.
- Search.IndexQueryShape: `index` passes the integer 20 where the model passes the string "20", so the lemma requires `parseInt("20") == Some(20)`.
- Search.BuildQueryAdmits: requires offset, limit, sort and order to occur at most once. With repeated keys, the later values stay behind and become `match` clauses. BuildQuery itself models that case through first-occurrence `pop`.
- Python's cross-type equality (`True == 1`, `1 == 1.0`) is not modelled. JSON values compare structurally, and numbers are integers.
- Permissions.StripUser: a dict of two or more keys used as a role container would be iterated in an unspecified key order. That case yields an `Unmodelled` fault rather than a filtered list. Empty and one-key dicts are iterated like Python does.
- AfterRequest.Hook: header names are matched exactly, not case-insensitively. A `None` endpoint, which would make `re.match` raise, is not modelled.
- AfterRequest.Strip: trims only ASCII whitespace, not other Unicode whitespace.
- Store.InvokeSubrequest: every status above 400 becomes an HTTP error of that status. `exception_response` raising KeyError for codes it does not know is not modelled.
- The views mutate the context object in place. The model is functional, so a failed update's partial mutation of the in-memory context is not represented. It is not persisted in either case.
- Where the two anonymisers differ, the model follows the code. The views' anonymiser removes the `user` key, and the update rules and view use it as written, including its KeyError on a record without an author. The store's hook blanks it to "" and keeps the key. So only the store's anonymiser leaves the record with an empty `user`; the views' leaves it with no `user` at all.
- Store.AnonymizeDeletesIdempotent: a second store anonymisation is a no-op only under a precondition. The second run filters by "", so it needs the precondition that no permission list contains "" (and no one-key dict role container has the key "").

## Findings

| source | as written | input that shows it | evidently intended | confidence | as-written member | corrected member |
|---|---|---|---|---|---|---|
| h/api/views.py:272 | `annotation.pop('user')` with no default, although the comment says "if present" | updating an already anonymised deleted record, e.g. `{"id": "a1", "deleted": true}` with no `user`, raises KeyError("user") instead of saving | `annotation.pop('user', None)` | medium, not executed | Views.AnonymizeDeletesAsWritten (counterexamples: Views.AnonymizeDeletesAsWrittenNotRepeatable, Views.UpdateOfAnonymisedCrashes) | Views.AnonymizeDeletes and Views.UpdateAnnotationIntended (Views.AnonymizeDeletesAgrees, Views.AnonymizeDeletesIdempotent, Views.UpdateIntendedAgrees) |

The update rules and the update view model the code as written. `Views.UpdateOfAnonymisedCrashes` shows the crash at the view level. `Views.UpdateAnnotationIntended` is the corrected update, and `Views.UpdateIntendedAgrees` relates the two.

=== FILE: after_request.dfy ===
/**
 The `after_request` hook of h/api/store.py: on a CORS preflight it adds
 `X-Client-ID` to the allowed request headers; otherwise it decides from the
 response status and the endpoint name whether an annotation event fires, and
 with which action and data.
 */
module AfterRequest {
  import opened Json

  // ---- Splitting, joining and trimming header values ----

  /** `s.split(c)`: the pieces between separators; never empty. */
  function Split(s: string, c: char): (parts: seq<string>)
    ensures |parts| >= 1
    ensures forall i | 0 <= i < |parts| :: c !in parts[i]
  {
    if s == [] then [""]
    else
      var rest := Split(s[1..], c);
      if s[0] == c then [""] + rest else [[s[0]] + rest[0]] + rest[1..]
  }

  /** `sep.join(parts)` */
  function Join(sep: string, parts: seq<string>): string {
    if parts == [] then ""
    else if |parts| == 1 then parts[0]
    else parts[0] + sep + Join(sep, parts[1..])
  }

  /** The characters `str.strip()` removes (ASCII whitespace). */
  predicate IsSpace(ch: char) {
    ch == ' ' || ch == '\t' || ch == '\n' || ch == '\r' || ch == 11 as char || ch == 12 as char
  }

  function TrimLeft(s: string): (r: string)
    ensures r == [] || !IsSpace(r[0])
    ensures exists i | 0 <= i <= |s| :: r == s[i..] && forall j | 0 <= j < i :: IsSpace(s[j])
  {
    if s != [] && IsSpace(s[0]) then
      var r := TrimLeft(s[1..]);
      ghost var i :| 0 <= i <= |s[1..]| && r == s[1..][i..] && forall j | 0 <= j < i :: IsSpace(s[1..][j]);
      assert r == s[i + 1..];
      r
    else
      assert s == s[0..];
      s
  }

  function TrimRight(s: string): (r: string)
    ensures r == [] || !IsSpace(r[|r| - 1])
    ensures exists i | 0 <= i <= |s| :: r == s[..i] && forall j | i <= j < |s| :: IsSpace(s[j])
  {
    if s != [] && IsSpace(s[|s| - 1]) then
      var r := TrimRight(s[..|s| - 1]);
      ghost var i :| 0 <= i <= |s| - 1 && r == s[..|s| - 1][..i]
                     && forall j | i <= j < |s| - 1 :: IsSpace(s[j]);
      assert r == s[..i];
      r
    else
      assert s == s[..|s|];
      s
  }

  /** `s.strip()` */
  function Strip(s: string): (r: string) {
    TrimRight(TrimLeft(s))
  }

  // ---- The header rewrite ----

  const ClientIdHeader: string := "X-Client-ID"

  /** The header names a comma-separated header value lists, each trimmed. */
  function Entries(value: string): (es: seq<string>)
    ensures |es| == |Split(value, ',')|
    ensures forall i | 0 <= i < |es| :: es[i] == Strip(Split(value, ',')[i])
  {
    var parts := Split(value, ',');
    seq(|parts|, i requires 0 <= i < |parts| => Strip(parts[i]))
  }

  /** The new `Access-Control-Allow-Headers` value of a preflight response. */
  function HeaderRewrite(value: string): string {
    Join(", ", Entries(value) + [ClientIdHeader])
  }

  // ---- The endpoint rule ----

  const EndpointPrefix: string := "store."
  const EndpointSuffix: string := "_annotation"

  /** `\w` without the UNICODE flag. */
  predicate IsWordChar(ch: char) {
    ('a' <= ch <= 'z') || ('A' <= ch <= 'Z') || ('0' <= ch <= '9') || ch == '_'
  }

  predicate IsWord(w: string) {
    w != [] && forall i | 0 <= i < |w| :: IsWordChar(w[i])
  }

  /** `re.match(r'^store\.(\w+)_annotation$', endpoint)` and its group. `$` also
      matches just before a final newline. Since `_annotation` consists of word
      characters, the group is everything between the prefix and the last suffix. */
  function EndpointAction(endpoint: string): (w: Option<string>)
    ensures w.Some? ==> IsWord(w.value)
  {
    var e := if endpoint != [] && endpoint[|endpoint| - 1] == '\n' then endpoint[..|endpoint| - 1] else endpoint;
    if |e| > |EndpointPrefix| + |EndpointSuffix|
       && e[..|EndpointPrefix|] == EndpointPrefix
       && e[|e| - |EndpointSuffix|..] == EndpointSuffix
       && IsWord(e[|EndpointPrefix|..|e| - |EndpointSuffix|])
    then Some(e[|EndpointPrefix|..|e| - |EndpointSuffix|])
    else None
  }

  // ---- The hook ----

  datatype Request = Request(verb: string, endpoint: string, data: Json)

  /** The parts of the response the hook reads: status, the CORS header (if set)
      and the decoded body. */
  datatype Response = Response(status: int, allowHeaders: Option<string>, data: Json)

  /** The annotation event the hook publishes: action name and annotation data. */
  datatype Event = Event(action: string, data: Json)

  datatype After = After(allowHeaders: Option<string>, event: Option<Event>)

  /** `after_request(response)`. */
  function Hook(request: Request, response: Response): (a: After)
    ensures request.verb == "OPTIONS" ==>
              a == After(Some(HeaderRewrite(response.allowHeaders.GetOr(""))), None)
    ensures request.verb != "OPTIONS" ==> a.allowHeaders == response.allowHeaders
    ensures a.event.Some? <==>
              request.verb != "OPTIONS" && 200 <= response.status < 300
              && EndpointAction(request.endpoint).Some?
    ensures a.event.Some? ==>
              var w := EndpointAction(request.endpoint).value;
              a.event.value == Event(w, if w == "delete" then request.data else response.data)
  {
    if request.verb == "OPTIONS" then
      After(Some(HeaderRewrite(response.allowHeaders.GetOr(""))), None)
    else if 200 <= response.status < 300 && EndpointAction(request.endpoint).Some? then
      var w := EndpointAction(request.endpoint).value;
      After(response.allowHeaders, Some(Event(w, if w == "delete" then request.data else response.data)))
    else
      After(response.allowHeaders, None)
  }

  // ---- Properties of the header rewrite ----

  /** Joining the pieces of a split with the same separator gives the string back. */
  lemma {:induction false} JoinSplit(s: string, c: char)
    ensures Join([c], Split(s, c)) == s
  {
    if s != [] {
      var rest := Split(s[1..], c);
      JoinSplit(s[1..], c);
      if s[0] == c {
        assert Join([c], [""] + rest) == "" + [c] + Join([c], rest);
      } else {
        JoinPrepend([s[0]], rest[0], rest[1..], [c]);
        assert [rest[0]] + rest[1..] == rest;
      }
    }
  }

  /** Extending the first piece extends the joined string at the front. */
  lemma JoinPrepend(p: string, first: string, rest: seq<string>, sep: string)
    ensures Join(sep, [p + first] + rest) == p + Join(sep, [first] + rest)
  {
    if rest != [] {
      assert ([p + first] + rest)[1..] == rest;
      assert ([first] + rest)[1..] == rest;
    }
  }

  /** A string without the separator splits into itself alone. */
  lemma {:induction false} SplitNoSeparator(p: string, c: char)
    requires c !in p
    ensures Split(p, c) == [p]
  {
    if p != [] {
      SplitNoSeparator(p[1..], c);
      assert [p[0]] + p[1..] == p;
    }
  }

  /** A leading separator-free piece followed by the separator splits off whole. */
  lemma {:induction false} SplitAtSeparator(p: string, c: char, t: string)
    requires c !in p
    ensures Split(p + [c] + t, c) == [p] + Split(t, c)
  {
    if p == [] {
      assert (p + [c] + t)[1..] == t;
    } else {
      assert (p + [c] + t)[1..] == p[1..] + [c] + t;
      SplitAtSeparator(p[1..], c, t);
      assert [p[0]] + p[1..] == p;
    }
  }

  /** Splitting a join of separator-free pieces recovers the pieces. */
  lemma {:induction false} SplitJoin(parts: seq<string>, c: char)
    requires parts != []
    requires forall i | 0 <= i < |parts| :: c !in parts[i]
    ensures Split(Join([c], parts), c) == parts
  {
    if |parts| == 1 {
      SplitNoSeparator(parts[0], c);
    } else {
      SplitJoin(parts[1..], c);
      SplitAtSeparator(parts[0], c, Join([c], parts[1..]));
      assert [parts[0]] + parts[1..] == parts;
    }
  }

  /** `strip` returns a slice of its argument, so it adds no characters. */
  lemma StripSlice(s: string, ch: char)
    requires ch !in s
    ensures ch !in Strip(s)
  {
    var l := TrimLeft(s);
    var i :| 0 <= i <= |s| && l == s[i..];
    var j :| 0 <= j <= |l| && Strip(s) == l[..j];
    assert Strip(s) == s[i..i + j];
  }

  /** Leading whitespace does not change the result of `strip`. */
  lemma StripSpacePrefix(x: string)
    ensures Strip(" " + x) == Strip(x)
  {
    assert (" " + x)[1..] == x;
  }

  /** `strip` is idempotent. */
  lemma StripIdempotent(s: string)
    ensures Strip(Strip(s)) == Strip(s)
  {
    var l := TrimLeft(s);
    var r := Strip(s);
    var j :| 0 <= j <= |l| && r == l[..j] && forall k | j <= k < |l| :: IsSpace(l[k]);
    assert TrimLeft(r) == r;
    assert r == [] || !IsSpace(r[|r| - 1]);
  }

  /** ", ".join(xs) is ",".join of the same pieces with a blank before all but the first. */
  lemma {:induction false} JoinCommaSpace(xs: seq<string>)
    requires xs != []
    ensures Join(", ", xs) == Join([','], [xs[0]] + Spaced(xs[1..]))
  {
    if |xs| >= 2 {
      JoinCommaSpace(xs[1..]);
      var rest := Spaced(xs[2..]);
      assert xs[1..][1..] == xs[2..];
      assert Spaced(xs[1..]) == [" " + xs[1]] + rest;
      JoinPrepend(" ", xs[1], rest, [',']);
      assert ([xs[0]] + Spaced(xs[1..]))[1..] == Spaced(xs[1..]);
    }
  }

  function Spaced(xs: seq<string>): (ys: seq<string>)
    ensures |ys| == |xs|
    ensures forall i | 0 <= i < |xs| :: ys[i] == " " + xs[i]
  {
    seq(|xs|, i requires 0 <= i < |xs| => " " + xs[i])
  }

  /** Every entry of a header value is comma-free and already trimmed. */
  lemma EntriesTrimmed(value: string, i: int)
    requires 0 <= i < |Entries(value)|
    ensures ',' !in Entries(value)[i] && Strip(Entries(value)[i]) == Entries(value)[i]
  {
    StripSlice(Split(value, ',')[i], ',');
    StripIdempotent(Split(value, ',')[i]);
  }

  /** The pieces `HeaderRewrite` joins with ",": every entry, then `X-Client-ID`,
      each but the first behind a blank. */
  function RewritePieces(value: string): (ys: seq<string>)
    ensures |ys| == |Entries(value)| + 1
  {
    var xs := Entries(value) + [ClientIdHeader];
    [xs[0]] + Spaced(xs[1..])
  }

  /** No piece holds a comma, and each trims back to the entry it came from. */
  lemma RewritePiece(value: string, i: int)
    requires 0 <= i < |Entries(value)| + 1
    ensures ',' !in RewritePieces(value)[i]
    ensures Strip(RewritePieces(value)[i]) == (Entries(value) + [ClientIdHeader])[i]
  {
    var xs := Entries(value) + [ClientIdHeader];
    var ys := RewritePieces(value);
    if i < |Entries(value)| {
      EntriesTrimmed(value, i);
    } else {
      assert xs[i] == ClientIdHeader;
      ClientIdTrimmed();
    }
    if i > 0 {
      assert ys[i] == " " + xs[i];
      StripSpacePrefix(xs[i]);
    }
  }

  lemma ClientIdTrimmed()
    ensures ',' !in ClientIdHeader && Strip(ClientIdHeader) == ClientIdHeader
  {
    var h := ClientIdHeader;
    assert !IsSpace(h[0]) && !IsSpace(h[|h| - 1]);
    assert TrimLeft(h) == h;
  }

  /** Entries of a comma-join of comma-free pieces are the trimmed pieces. */
  lemma EntriesOfJoin(ys: seq<string>, xs: seq<string>)
    requires ys != [] && |xs| == |ys|
    requires forall i | 0 <= i < |ys| :: ',' !in ys[i]
    requires forall i | 0 <= i < |ys| :: Strip(ys[i]) == xs[i]
    ensures Entries(Join([','], ys)) == xs
  {
    SplitJoin(ys, ',');
  }

  /** Reading the rewritten header back gives the original entries followed by
      `X-Client-ID`: the rewrite keeps every entry, trimmed, in order. */
  lemma HeaderRewriteEntries(value: string)
    ensures Entries(HeaderRewrite(value)) == Entries(value) + [ClientIdHeader]
  {
    var xs := Entries(value) + [ClientIdHeader];
    var ys := RewritePieces(value);
    JoinCommaSpace(xs);
    assert HeaderRewrite(value) == Join([','], ys);
    forall i | 0 <= i < |ys|
      ensures ',' !in ys[i] && Strip(ys[i]) == xs[i]
    {
      RewritePiece(value, i);
    }
    EntriesOfJoin(ys, xs);
  }

  /** An absent or empty header becomes ", X-Client-ID". */
  lemma EmptyHeaderRewrite()
    ensures HeaderRewrite("") == ", X-Client-ID"
  {
    assert Split("", ',') == [""];
    assert Strip("") == "";
    assert Entries("") == [""];
    assert Join(", ", ["", ClientIdHeader]) == "" + ", " + Join(", ", [ClientIdHeader]);
  }

  // ---- Properties of the endpoint rule ----

  /** Every store endpoint named after a word yields that word, with or without a
      trailing newline. */
  lemma EndpointActionOf(w: string)
    requires IsWord(w)
    ensures EndpointAction(EndpointPrefix + w + EndpointSuffix) == Some(w)
    ensures EndpointAction(EndpointPrefix + w + EndpointSuffix + "\n") == Some(w)
  {
    var e := EndpointPrefix + w + EndpointSuffix;
    assert e[..|EndpointPrefix|] == EndpointPrefix;
    assert e[|e| - |EndpointSuffix|..] == EndpointSuffix;
    assert e[|EndpointPrefix|..|e| - |EndpointSuffix|] == w;
    assert e[|e| - 1] != '\n';
    assert (e + "\n")[..|e + "\n"| - 1] == e;
  }

  /** Conversely, an endpoint that yields an action is exactly a store endpoint
      named after it. */
  lemma EndpointActionSound(endpoint: string)
    requires EndpointAction(endpoint).Some?
    ensures var w := EndpointAction(endpoint).value;
            || endpoint == EndpointPrefix + w + EndpointSuffix
            || endpoint == EndpointPrefix + w + EndpointSuffix + "\n"
  {
    var e := if endpoint != [] && endpoint[|endpoint| - 1] == '\n' then endpoint[..|endpoint| - 1] else endpoint;
    var w := EndpointAction(endpoint).value;
    assert e == e[..|EndpointPrefix|] + e[|EndpointPrefix|..|e| - |EndpointSuffix|] + e[|e| - |EndpointSuffix|..];
    if e != endpoint {
      assert endpoint == e + "\n";
    }
  }

  /** A successful delete publishes the request body; any other successful
      annotation action publishes the response body. */
  lemma EventData(request: Request, response: Response, w: string)
    requires IsWord(w) && request.verb != "OPTIONS" && 200 <= response.status < 300
    requires request.endpoint == EndpointPrefix + w + EndpointSuffix
    ensures Hook(request, response).event
         == Some(Event(w, if w == "delete" then request.data else response.data))
  {
    EndpointActionOf(w);
  }
}

=== FILE: json.dfy ===
/**
 The value model shared by every part of the annotation API: JSON documents,
 Python's truthiness on them, and Python exceptions as an explicit error path.
 */
module Json {

  /** A decoded JSON value. Objects are maps: Python dict equality ignores key order. */
  datatype Json =
    | Null
    | Bool(b: bool)
    | Int(n: int)
    | Str(s: string)
    | Arr(items: seq<Json>)
    | Obj(fields: map<string, Json>)

  /** An annotation, a query dict or any other string-keyed dict. */
  type Record = map<string, Json>

  /** The annotation field that marks a NIPSA'd annotation (hidden from the public). */
  const NipsaFlag: string := "not_in_public_site_areas"

  /** The Python exceptions the modelled code can raise. `Unmodelled` marks the one
      behaviour the model deliberately does not pin down (see the README). */
  datatype Fault =
    | KeyError(key: string)
    | TypeError
    | AttributeError
    | RuntimeError(reason: string, status: int)
    | HttpError(status: int)
    | Unmodelled

  /** A value that may be missing (`None` in Python, or an absent dict key). */
  datatype Option<+T> = None | Some(value: T) {
    function GetOr(default: T): T {
      if Some? then value else default
    }
  }

  /** A computation that either returns a value or raises. */
  datatype Result<+T> = Ok(value: T) | Raise(fault: Fault)

  /** Python's `bool(v)` on a decoded JSON value. */
  predicate Truthy(v: Json) {
    match v
    case Null => false
    case Bool(b) => b
    case Int(n) => n != 0
    case Str(s) => s != ""
    case Arr(items) => items != []
    case Obj(fields) => fields != map[]
  }

  /** `d.get(key, default)` */
  function Get(d: Record, key: string, default: Json): Json {
    if key in d then d[key] else default
  }

  /** `v[key]` with a string key: only a dict can be indexed by a string. */
  function Subscript(v: Json, key: string): (r: Result<Json>)
    ensures r.Ok? <==> v.Obj? && key in v.fields
    ensures r.Ok? ==> r.value == v.fields[key]
    ensures v.Obj? && key !in v.fields ==> r == Raise(KeyError(key))
  {
    match v
    case Obj(fields) => if key in fields then Ok(fields[key]) else Raise(KeyError(key))
    case _ => Raise(TypeError)
  }

  /** The one-entry dict `{key: value}`. */
  function Single(key: string, value: Json): Json {
    Obj(map[key := value])
  }

  const EmptyObj: Json := Obj(map[])
}

=== FILE: params.dfy ===
/**
 Request parameters as the search API receives them: webob's MultiDict, an
 ordered list of (key, value) pairs in which a key may repeat. `GetAll` is the
 reference view of a multidict; the lemmas below say what every other
 operation does to `GetAll` of each key.
 */
module Params {
  import opened Json

  type Pair = (string, string)
  type Params = seq<Pair>

  /** `key in params` */
  predicate Has(ps: Params, key: string) {
    exists i | 0 <= i < |ps| :: ps[i].0 == key
  }

  /** `params.getall(key)`: every value of `key`, in order. */
  function GetAll(ps: Params, key: string): seq<string> {
    if ps == [] then []
    else (if ps[0].0 == key then [ps[0].1] else []) + GetAll(ps[1..], key)
  }

  /** The value `params.pop(key)` returns: the first value of `key`, if any. */
  function First(ps: Params, key: string): Option<string> {
    if ps == [] then None
    else if ps[0].0 == key then Some(ps[0].1)
    else First(ps[1..], key)
  }

  /** The multidict left after `params.pop(key)`: only the first pair with `key` is removed. */
  function PopFirst(ps: Params, key: string): Params {
    if ps == [] then []
    else if ps[0].0 == key then ps[1..]
    else [ps[0]] + PopFirst(ps[1..], key)
  }

  /** The multidict left after `del params[k]` for every `k` in `keys`: all their pairs go. */
  function DelKeys(ps: Params, keys: set<string>): (rest: Params)
    ensures forall i | 0 <= i < |rest| :: rest[i].0 !in keys
  {
    if ps == [] then []
    else if ps[0].0 in keys then DelKeys(ps[1..], keys)
    else [ps[0]] + DelKeys(ps[1..], keys)
  }

  lemma {:induction false} HasFirstPair(ps: Params, key: string)
    requires ps != []
    ensures Has(ps, key) <==> ps[0].0 == key || Has(ps[1..], key)
  {
    if Has(ps, key) && ps[0].0 != key {
      var i :| 0 <= i < |ps| && ps[i].0 == key;
      assert ps[1..][i - 1].0 == key;
    }
    if Has(ps[1..], key) {
      var i :| 0 <= i < |ps[1..]| && ps[1..][i].0 == key;
      assert ps[i + 1].0 == key;
    }
  }

  /** A key is present exactly when it has values, and `pop` returns the first of them. */
  lemma {:induction false} FirstIsHeadOfGetAll(ps: Params, key: string)
    ensures GetAll(ps, key) == [] <==> !Has(ps, key)
    ensures First(ps, key).Some? <==> Has(ps, key)
    ensures First(ps, key).Some? ==> First(ps, key).value == GetAll(ps, key)[0]
  {
    if ps != [] {
      HasFirstPair(ps, key);
      FirstIsHeadOfGetAll(ps[1..], key);
    }
  }

  /** `pop(key)` drops the first value of `key` and leaves every other key's values alone. */
  lemma {:induction false} PopFirstGetAll(ps: Params, key: string, k: string)
    ensures GetAll(PopFirst(ps, key), k)
         == if k != key then GetAll(ps, k)
            else if GetAll(ps, key) == [] then [] else GetAll(ps, key)[1..]
  {
    if ps != [] {
      PopFirstGetAll(ps[1..], key, k);
      if ps[0].0 != key {
        assert PopFirst(ps, key)[1..] == PopFirst(ps[1..], key);
      }
    }
  }

  /** `del` empties the deleted keys and leaves every other key's values alone. */
  lemma {:induction false} DelKeysGetAll(ps: Params, keys: set<string>, k: string)
    ensures GetAll(DelKeys(ps, keys), k) == if k in keys then [] else GetAll(ps, k)
  {
    if ps != [] {
      DelKeysGetAll(ps[1..], keys, k);
      if ps[0].0 !in keys {
        assert DelKeys(ps, keys)[1..] == DelKeys(ps[1..], keys);
      }
    }
  }

  /** Popping one key does not change what popping another key returns. */
  lemma {:induction false} FirstAfterPop(ps: Params, popped: string, key: string)
    requires popped != key
    ensures First(PopFirst(ps, popped), key) == First(ps, key)
  {
    if ps != [] {
      FirstAfterPop(ps[1..], popped, key);
      if ps[0].0 != popped {
        assert PopFirst(ps, popped)[1..] == PopFirst(ps[1..], popped);
      }
    }
  }

  /** Removing two key sets one after the other removes their union. */
  lemma {:induction false} DelKeysTwice(ps: Params, a: set<string>, b: set<string>)
    ensures DelKeys(DelKeys(ps, a), b) == DelKeys(ps, a + b)
  {
    if ps != [] {
      DelKeysTwice(ps[1..], a, b);
      if ps[0].0 !in a {
        assert DelKeys(ps, a)[1..] == DelKeys(ps[1..], a);
      }
    }
  }

  /** For a key that occurs at most once, `pop` and `del` leave the same multidict. */
  lemma {:induction false} PopFirstSingle(ps: Params, key: string)
    requires |GetAll(ps, key)| <= 1
    ensures PopFirst(ps, key) == DelKeys(ps, {key})
  {
    if ps != [] {
      if ps[0].0 == key {
        assert GetAll(ps[1..], key) == [];
        FirstIsHeadOfGetAll(ps[1..], key);
        NoPairsWithout(ps[1..], key);
      } else {
        PopFirstSingle(ps[1..], key);
      }
    }
  }

  /** A multidict without `key` is unchanged by deleting `key`. */
  lemma {:induction false} NoPairsWithout(ps: Params, key: string)
    requires !Has(ps, key)
    ensures DelKeys(ps, {key}) == ps
  {
    if ps != [] {
      HasFirstPair(ps, key);
      NoPairsWithout(ps[1..], key);
    }
  }
}

=== FILE: permissions.dfy ===
/**
 Removing a user from an annotation's permission lists, the step both
 anonymisers share (h/api/views.py and h/api/store.py). An annotation's
 `permissions` is a dict from action name ("read", "update", ...) to a list of
 roles; anonymising keeps every action and drops the roles equal to the user.
 */
module Permissions {
  import opened Json

  /** The list comprehension `[role for role in roles if role != user]`. */
  function Without(roles: seq<Json>, user: Json): (r: seq<Json>)
    ensures |r| <= |roles|
  {
    if roles == [] then []
    else (if roles[0] != user then [roles[0]] else []) + Without(roles[1..], user)
  }

  /** A dict with at most one key: Python iterates its keys in a fixed order. */
  predicate SmallDict(v: Json) {
    v.Obj? && |v.fields| <= 1
  }

  /** The one key of a one-key dict. */
  function OnlyKey(m: map<string, Json>): (k: string)
    requires |m| == 1
    ensures k in m && m.Keys == {k}
  {
    var k :| k in m;
    assert m.Keys == {k} by {
      forall j | j in m ensures j == k {
        if j != k {
          assert {j, k} <= m.Keys;
          assert |{j, k}| == 2;
          SubsetCard({j, k}, m.Keys);
        }
      }
    }
    k
  }

  lemma SubsetCard(a: set<string>, b: set<string>)
    requires a <= b
    ensures |a| <= |b|
  {
    assert b == a + (b - a);
  }

  /** Python can iterate a list, a string (yielding one-character strings) or a dict
      (yielding its keys). Only dicts of at most one key are modelled: their key
      order is fixed. */
  predicate Iterable(v: Json) {
    v.Arr? || v.Str? || SmallDict(v)
  }

  /** What `for role in v` visits. */
  function Elements(v: Json): (es: seq<Json>)
    requires Iterable(v)
    ensures v.Arr? ==> es == v.items
    ensures v.Str? ==> |es| == |v.s| && forall i | 0 <= i < |v.s| :: es[i] == Str([v.s[i]])
    ensures v.Obj? ==> |es| == |v.fields| && forall i | 0 <= i < |es| :: es[i].Str? && es[i].s in v.fields
  {
    if v.Arr? then v.items
    else if v.Str? then seq(|v.s|, i requires 0 <= i < |v.s| => Str([v.s[i]]))
    else if v.fields == map[] then []
    else [Str(OnlyKey(v.fields))]
  }

  /** Filtering every action's roles, as the loop over `permissions.keys()` does.
      A role container that cannot be iterated raises TypeError; a dict of two or
      more keys used as a role container would be iterated in an unspecified key
      order, which the model does not pin down. */
  function StripUser(perms: map<string, Json>, user: Json): (r: Result<map<string, Json>>)
    ensures r.Ok? <==> forall a | a in perms :: Iterable(perms[a])
    ensures r.Ok? ==> r.value.Keys == perms.Keys
    ensures r.Ok? ==> forall a | a in perms :: r.value[a] == Arr(Without(Elements(perms[a]), user))
    ensures (exists a | a in perms :: !Iterable(perms[a]) && !perms[a].Obj?) ==> r == Raise(TypeError)
    ensures r == Raise(Unmodelled) ==> exists a | a in perms :: perms[a].Obj? && |perms[a].fields| >= 2
  {
    if exists a | a in perms :: !Iterable(perms[a]) && !perms[a].Obj? then Raise(TypeError)
    else if exists a | a in perms :: !Iterable(perms[a]) then Raise(Unmodelled)
    else Ok(map a | a in perms :: Arr(Without(Elements(perms[a]), user)))
  }

  /** The stripping loop can run to the end: either there is no `permissions`, or it
      is a dict whose every role container is a list or a string. */
  predicate Strippable(annotation: Record) {
    "permissions" !in annotation ||
    (annotation["permissions"].Obj? &&
     forall a | a in annotation["permissions"].fields :: Iterable(annotation["permissions"].fields[a]))
  }

  /** The permission-stripping loop applied to an annotation: nothing to do without
      a `permissions` key; a `permissions` value other than a dict has no `keys()`. */
  function RemoveUser(annotation: Record, user: Json): (r: Result<Record>)
    ensures r.Ok? <==> Strippable(annotation)
    ensures "permissions" !in annotation ==> r == Ok(annotation)
    ensures "permissions" in annotation && !annotation["permissions"].Obj? ==> r == Raise(AttributeError)
    ensures r.Ok? ==> r.value.Keys == annotation.Keys
    ensures r.Ok? ==> forall k | k in annotation && k != "permissions" :: r.value[k] == annotation[k]
    ensures r.Ok? && "permissions" in annotation ==>
              var perms := annotation["permissions"].fields;
              && r.value["permissions"].Obj?
              && r.value["permissions"].fields.Keys == perms.Keys
              && (forall a | a in perms :: Iterable(perms[a]))
              && forall a | a in perms ::
                   r.value["permissions"].fields[a] == Arr(Without(Elements(perms[a]), user))
  {
    if "permissions" !in annotation then Ok(annotation)
    else
      match annotation["permissions"]
      case Obj(perms) =>
        (match StripUser(perms, user)
         case Ok(stripped) => Ok(annotation["permissions" := Obj(stripped)])
         case Raise(f) => Raise(f))
      case _ => Raise(AttributeError)
  }

  // ---- Properties of the role filter ----

  /** Exactly the roles equal to the user go, every other occurrence stays. */
  lemma {:induction false} WithoutMultiset(roles: seq<Json>, user: Json)
    ensures multiset(Without(roles, user)) == multiset(roles)[user := 0]
  {
    if roles != [] {
      var head := if roles[0] != user then [roles[0]] else [];
      WithoutMultiset(roles[1..], user);
      assert roles == [roles[0]] + roles[1..];
      assert multiset(roles) == multiset([roles[0]]) + multiset(roles[1..]);
      assert multiset(Without(roles, user)) == multiset(head) + multiset(Without(roles[1..], user));
    }
  }

  /** The filter works piecewise, so the kept roles keep their relative order. */
  lemma {:induction false} WithoutAppend(a: seq<Json>, b: seq<Json>, user: Json)
    ensures Without(a + b, user) == Without(a, user) + Without(b, user)
  {
    if a != [] {
      assert (a + b)[0] == a[0];
      assert (a + b)[1..] == a[1..] + b;
      WithoutAppend(a[1..], b, user);
      var head := if a[0] != user then [a[0]] else [];
      assert Without(a + b, user) == head + Without(a[1..] + b, user);
      assert Without(a, user) == head + Without(a[1..], user);
    } else {
      assert a + b == b;
    }
  }

  /** A role survives exactly when it was there and is not the user. */
  lemma WithoutMembers(roles: seq<Json>, user: Json, x: Json)
    ensures x in Without(roles, user) <==> x in roles && x != user
  {
    WithoutMultiset(roles, user);
    assert x in Without(roles, user) <==> x in multiset(Without(roles, user));
    assert x in roles <==> x in multiset(roles);
  }

  /** Lists that do not mention the user are left exactly as they were. */
  lemma {:induction false} WithoutAbsent(roles: seq<Json>, user: Json)
    requires user !in roles
    ensures Without(roles, user) == roles
  {
    if roles != [] {
      WithoutAbsent(roles[1..], user);
      assert roles == [roles[0]] + roles[1..];
    }
  }

  /** Filtering twice by the same user is filtering once. */
  lemma WithoutIdempotent(roles: seq<Json>, user: Json)
    ensures Without(Without(roles, user), user) == Without(roles, user)
  {
    WithoutMembers(roles, user, user);
    WithoutAbsent(Without(roles, user), user);
  }

  /** Permission lists that are already plain lists without the user are left as they are. */
  lemma StripUserNoop(perms: map<string, Json>, user: Json)
    requires forall a | a in perms :: perms[a].Arr? && user !in perms[a].items
    ensures StripUser(perms, user) == Ok(perms)
  {
    var r := StripUser(perms, user);
    forall a | a in perms
      ensures r.value[a] == perms[a]
    {
      WithoutAbsent(perms[a].items, user);
    }
    assert r.value == perms;
  }

  /** The one-character strings a string role container yields are never null or "". */
  lemma CharElements(v: Json)
    requires v.Str?
    ensures Null !in Elements(v) && Str("") !in Elements(v)
  {
    var es := Elements(v);
    assert forall i | 0 <= i < |es| :: es[i] == Str([v.s[i]]);
  }

  /** The keys a small dict yields are strings, and "" only when it is a key. */
  lemma KeyElements(v: Json)
    requires SmallDict(v)
    ensures Null !in Elements(v)
    ensures Str("") in Elements(v) ==> "" in v.fields
  {
  }

  /** After filtering by `user`, a role `x` is absent when it is the user or was never there. */
  lemma StrippedLacks(v: Json, user: Json, x: Json)
    requires Iterable(v)
    requires x == user || x !in Elements(v)
    ensures x !in Without(Elements(v), user)
  {
    WithoutMembers(Elements(v), user, x);
  }

  /** An annotation whose permission lists are plain lists without the user is left as it is. */
  lemma RemoveUserNoop(annotation: Record, user: Json)
    requires "permissions" in annotation ==> annotation["permissions"].Obj?
    requires "permissions" in annotation ==>
               forall a | a in annotation["permissions"].fields ::
                 annotation["permissions"].fields[a].Arr? && user !in annotation["permissions"].fields[a].items
    ensures RemoveUser(annotation, user) == Ok(annotation)
  {
    if "permissions" in annotation {
      var perms := annotation["permissions"].fields;
      StripUserNoop(perms, user);
      assert annotation["permissions" := Obj(perms)] == annotation;
    }
  }
}

=== FILE: query_eval.dfy ===
/**
 The Elasticsearch query dialect the search module writes, and a small
 evaluator for it: which stored documents a query admits. The evaluator gives
 meaning to `term`, `not`, `bool` (`must` / `should`), `filtered` and
 `match_all`; the full-text clauses `match` and `multi_match` are decided by an
 oracle, since relevance matching belongs to the index engine.
 */
module QueryDsl {
  import opened Json

  // ---- Clause constructors: the dict shapes h/api/search.py writes ----

  /** `{"term": {field: value}}` */
  function Term(field: string, value: Json): Json {
    Single("term", Single(field, value))
  }

  /** `{"not": clause}` */
  function Not(clause: Json): Json {
    Single("not", clause)
  }

  /** `{"bool": {kind: clauses}}`, kind being "must" or "should". */
  function BoolClause(kind: string, clauses: seq<Json>): Json {
    Single("bool", Single(kind, Arr(clauses)))
  }

  /** `{"filtered": {"filter": filter, "query": query}}` */
  function Filtered(filter: Json, query: Json): Json {
    Single("filtered", Obj(map["filter" := filter, "query" := query]))
  }

  /** `{"filtered": {"filter": filter}}`, with no query part. */
  function FilterOnly(filter: Json): Json {
    Single("filtered", Single("filter", filter))
  }

  /** `{"match_all": {}}` */
  const MatchAll: Json := Single("match_all", EmptyObj)

  // ---- The evaluator ----

  /** Decides a full-text clause (`match` / `multi_match`) against a document. */
  type TextOracle = (Json, Record) -> bool

  /** `{"term": {field: value}}` holds when the document has exactly that value in that field. */
  predicate TermHolds(t: Json, doc: Record) {
    t.Obj? && |t.fields| == 1 &&
    forall f | f in t.fields :: f in doc && doc[f] == t.fields[f]
  }

  /** Whether query clause `q` admits document `doc`. */
  predicate Admits(q: Json, doc: Record, text: TextOracle)
    decreases q, 1
  {
    match q
    case Obj(m) =>
      if |m| != 1 then false
      else if "term" in m then TermHolds(m["term"], doc)
      else if "not" in m then !Admits(m["not"], doc, text)
      else if "bool" in m then
        match m["bool"]
        case Obj(b) =>
          && ("must" in b ==> b["must"].Arr? && AllAdmit(b["must"].items, doc, text))
          && ("should" in b ==> b["should"].Arr? && SomeAdmits(b["should"].items, doc, text))
        case _ => false
      else if "filtered" in m then
        match m["filtered"]
        case Obj(f) =>
          && ("filter" in f ==> Admits(f["filter"], doc, text))
          && ("query" in f ==> Admits(f["query"], doc, text))
        case _ => false
      else if "match_all" in m then true
      else if "match" in m || "multi_match" in m then text(q, doc)
      else false
    case _ => false
  }

  /** Every clause admits the document (a `must` list). */
  predicate AllAdmit(cs: seq<Json>, doc: Record, text: TextOracle)
    decreases cs, 0
  {
    cs == [] || (Admits(cs[0], doc, text) && AllAdmit(cs[1..], doc, text))
  }

  /** Some clause admits the document (a `should` list). */
  predicate SomeAdmits(cs: seq<Json>, doc: Record, text: TextOracle)
    decreases cs, 0
  {
    cs != [] && (Admits(cs[0], doc, text) || SomeAdmits(cs[1..], doc, text))
  }

  // ---- What each clause shape admits ----

  /** A term clause is satisfied exactly by documents carrying that field value. */
  lemma TermAdmits(field: string, value: Json, doc: Record, text: TextOracle)
    ensures Admits(Term(field, value), doc, text) <==> field in doc && doc[field] == value
  {
    assert |Single(field, value).fields| == 1;
    assert |Term(field, value).fields| == 1;
  }

  lemma NotAdmits(clause: Json, doc: Record, text: TextOracle)
    ensures Admits(Not(clause), doc, text) <==> !Admits(clause, doc, text)
  {
    assert |Not(clause).fields| == 1;
  }

  lemma BoolAdmits(clauses: seq<Json>, doc: Record, text: TextOracle)
    ensures Admits(BoolClause("must", clauses), doc, text) <==> AllAdmit(clauses, doc, text)
    ensures Admits(BoolClause("should", clauses), doc, text) <==> SomeAdmits(clauses, doc, text)
  {
    assert |BoolClause("must", clauses).fields| == 1;
    assert |BoolClause("should", clauses).fields| == 1;
  }

  lemma FilteredAdmits(filter: Json, query: Json, doc: Record, text: TextOracle)
    ensures Admits(Filtered(filter, query), doc, text)
        <==> Admits(filter, doc, text) && Admits(query, doc, text)
  {
    assert |Filtered(filter, query).fields| == 1;
  }

  lemma FilterOnlyAdmits(filter: Json, doc: Record, text: TextOracle)
    ensures Admits(FilterOnly(filter), doc, text) <==> Admits(filter, doc, text)
  {
    assert |FilterOnly(filter).fields| == 1;
  }

  lemma MatchAllAdmits(doc: Record, text: TextOracle)
    ensures Admits(MatchAll, doc, text)
  {
    assert |MatchAll.fields| == 1;
  }

  /** `match` and `multi_match` clauses are left to the oracle. */
  lemma TextAdmits(kind: string, body: Json, doc: Record, text: TextOracle)
    requires kind == "match" || kind == "multi_match"
    ensures Admits(Single(kind, body), doc, text) == text(Single(kind, body), doc)
  {
    assert |Single(kind, body).fields| == 1;
  }

  // ---- Clause lists ----

  /** A `must` list holds exactly when each of its clauses does. */
  lemma {:induction false} AllAdmitEach(cs: seq<Json>, doc: Record, text: TextOracle)
    ensures AllAdmit(cs, doc, text) <==> forall j | 0 <= j < |cs| :: Admits(cs[j], doc, text)
  {
    if cs != [] {
      AllAdmitEach(cs[1..], doc, text);
      assert forall j | 1 <= j < |cs| :: cs[1..][j - 1] == cs[j];
    }
  }

  /** A `should` list holds exactly when one of its clauses does. */
  lemma {:induction false} SomeAdmitsOne(cs: seq<Json>, doc: Record, text: TextOracle)
    ensures SomeAdmits(cs, doc, text) <==> exists j | 0 <= j < |cs| :: Admits(cs[j], doc, text)
  {
    if cs != [] {
      SomeAdmitsOne(cs[1..], doc, text);
      assert forall j | 1 <= j < |cs| :: cs[1..][j - 1] == cs[j];
    }
  }

  /** Concatenated `must` lists hold exactly when both parts do. */
  lemma {:induction false} AllAdmitAppend(a: seq<Json>, b: seq<Json>, doc: Record, text: TextOracle)
    ensures AllAdmit(a + b, doc, text) <==> AllAdmit(a, doc, text) && AllAdmit(b, doc, text)
  {
    if a != [] {
      assert (a + b)[1..] == a[1..] + b;
      AllAdmitAppend(a[1..], b, doc, text);
    } else {
      assert a + b == b;
    }
  }

  lemma AllAdmitPair(a: Json, b: Json, doc: Record, text: TextOracle)
    ensures AllAdmit([a], doc, text) <==> Admits(a, doc, text)
    ensures AllAdmit([a, b], doc, text) <==> Admits(a, doc, text) && Admits(b, doc, text)
  {
    assert [a, b][1..] == [b];
    assert [b][1..] == [];
    assert [a][1..] == [];
  }

  lemma SomeAdmitsPair(a: Json, b: Json, doc: Record, text: TextOracle)
    ensures SomeAdmits([a], doc, text) <==> Admits(a, doc, text)
    ensures SomeAdmits([a, b], doc, text) <==> Admits(a, doc, text) || Admits(b, doc, text)
  {
    assert [a, b][1..] == [b];
    assert [b][1..] == [];
    assert [a][1..] == [];
  }
}

=== FILE: search.dfy ===
/**
 h/api/search.py: translating search-API parameters into an Elasticsearch
 query dict, and the NIPSA ("not in public site areas") visibility filter that
 every search is wrapped in.
 */
module Search {
  import opened Json
  import opened Params
  import opened QueryDsl

  /** The fields an `any` search looks in. */
  const AnyFields: seq<string> := ["quote", "tags", "text", "uri.parts", "user"]

  /** Parameters that never become a `match` clause of their own. */
  const Reserved: set<string> := {"offset", "limit", "sort", "order", "any"}

  /** `{"term": {"not_in_public_site_areas": True}}` */
  const NipsaTerm: Json := Term(NipsaFlag, Bool(true))

  function Strs(xs: seq<string>): (js: seq<Json>)
    ensures |js| == |xs|
    ensures forall i | 0 <= i < |xs| :: js[i] == Str(xs[i])
  {
    seq(|xs|, i requires 0 <= i < |xs| => Str(xs[i]))
  }

  /** The cross-field clause for the values of `any`. */
  function MultiMatch(values: seq<string>): Json {
    Single("multi_match", Obj(map[
      "fields" := Arr(Strs(AnyFields)),
      "query" := Arr(Strs(values)),
      "type" := Str("cross_fields")]))
  }

  /** `{"match": {key: value}}` for one request parameter. */
  function Match(p: Pair): Json {
    Single("match", Single(p.0, Str(p.1)))
  }

  /** `[{key: {"ignore_unmapped": True, "order": order}}]` */
  function SortSpec(key: string, order: string): Json {
    Arr([Single(key, Obj(map["ignore_unmapped" := Bool(true), "order" := Str(order)]))])
  }

  /** Whether `clause` is a plain `match` clause on parameter `key`. */
  predicate MatchesKey(clause: Json, key: string) {
    clause.Obj? && "match" in clause.fields &&
    clause.fields["match"].Obj? && key in clause.fields["match"].fields
  }

  // ---- The visibility policy ----

  /** The document carries the NIPSA flag. */
  predicate Flagged(doc: Record) {
    NipsaFlag in doc && doc[NipsaFlag] == Bool(true)
  }

  /** The document was written by `userId`. */
  predicate AuthoredBy(doc: Record, userId: string) {
    "user" in doc && doc["user"] == Str(userId)
  }

  /** What the NIPSA filter is meant to let through for viewer `userId`
      ("" stands for an anonymous viewer, Python's None). */
  predicate Visible(doc: Record, userId: string) {
    !Flagged(doc) || (userId != "" && AuthoredBy(doc, userId))
  }

  /** The `should` clauses of the NIPSA filter. */
  function ShouldClauses(userId: string): (s: seq<Json>)
    ensures |s| == if userId == "" then 1 else 2
    ensures s[0] == Not(NipsaTerm)
    ensures userId != "" ==> s[1] == Term("user", Str(userId))
  {
    [Not(NipsaTerm)] + if userId != "" then [Term("user", Str(userId))] else []
  }

  /** `nipsa_filter(query, user_id)`: a copy of `query` whose "query" entry is
      wrapped in the NIPSA filter; every other entry is carried over. */
  function NipsaFilter(query: Record, userId: string): (r: Result<Record>)
    ensures r.Ok? <==> "query" in query
    ensures !r.Ok? ==> r == Raise(KeyError("query"))
    ensures r.Ok? ==> r.value.Keys == query.Keys
    ensures r.Ok? ==> forall k | k in query && k != "query" :: r.value[k] == query[k]
    ensures r.Ok? ==>
      r.value["query"] == Filtered(BoolClause("should", ShouldClauses(userId)), query["query"])
  {
    if "query" !in query then Raise(KeyError("query"))
    else
      var filter := BoolClause("should", ShouldClauses(userId));
      Ok(query["query" := Filtered(filter, query["query"])])
  }

  /** The NIPSA filter admits exactly the documents the policy makes visible. */
  lemma FilterAdmitsVisible(userId: string, doc: Record, text: TextOracle)
    ensures Admits(BoolClause("should", ShouldClauses(userId)), doc, text) <==> Visible(doc, userId)
  {
    var s := ShouldClauses(userId);
    var unflagged := Not(NipsaTerm);
    var authored := Term("user", Str(userId));
    BoolAdmits(s, doc, text);
    TermAdmits(NipsaFlag, Bool(true), doc, text);
    TermAdmits("user", Str(userId), doc, text);
    NotAdmits(NipsaTerm, doc, text);
    SomeAdmitsPair(unflagged, authored, doc, text);
    if userId != "" {
      assert s == [unflagged, authored];
    } else {
      assert s == [unflagged];
    }
  }

  /** A filtered query admits a document exactly when the original query does and
      the document is visible to `userId`: the original is nested once, unchanged. */
  lemma NipsaFilterAdmits(query: Record, userId: string, doc: Record, text: TextOracle)
    requires "query" in query
    ensures Admits(NipsaFilter(query, userId).value["query"], doc, text)
        <==> Visible(doc, userId) && Admits(query["query"], doc, text)
  {
    FilterAdmitsVisible(userId, doc, text);
    FilteredAdmits(BoolClause("should", ShouldClauses(userId)), query["query"], doc, text);
  }

  // ---- The query builder ----

  /** How `offset` and `limit` are read: `int(value)` when it parses and is not
      negative, the default when the key is missing, unparsable or negative. */
  function Count(raw: Option<string>, default: nat, parseInt: string -> Option<int>): (n: nat)
    ensures raw.Some? && parseInt(raw.value).Some? && parseInt(raw.value).value >= 0
            ==> n == parseInt(raw.value).value
    ensures !(raw.Some? && parseInt(raw.value).Some? && parseInt(raw.value).value >= 0)
            ==> n == default
  {
    match raw
    case None => default
    case Some(s) =>
      match parseInt(s)
      case None => default
      case Some(n) => if n < 0 then default else n
  }

  /** The parameters left once `offset`, `limit`, `sort` and `order` have been popped. */
  function Popped(params: Params): Params {
    PopFirst(PopFirst(PopFirst(PopFirst(params, "offset"), "limit"), "sort"), "order")
  }

  /** The parameters that become `match` clauses: the popped ones without `any`. */
  function Leftover(params: Params): (rest: Params)
    ensures forall i | 0 <= i < |rest| :: rest[i].0 != "any"
  {
    DelKeys(Popped(params), {"any"})
  }

  function MatchClauses(ps: Params): (cs: seq<Json>)
    ensures |cs| == |ps|
    ensures forall i | 0 <= i < |ps| :: cs[i] == Match(ps[i])
  {
    seq(|ps|, i requires 0 <= i < |ps| => Match(ps[i]))
  }

  /** The `must` list assembled from the `any` values and the leftover parameters:
      the cross-field clause first (when `any` had values), then one `match` per
      pair in order, and `match_all` when neither produced a clause. */
  function MustList(anyValues: seq<string>, rest: Params): (ms: seq<Json>)
    ensures |ms| == if anyValues == [] && rest == [] then 1
                    else (if anyValues != [] then 1 else 0) + |rest|
    ensures anyValues != [] ==> ms[0] == MultiMatch(anyValues)
    ensures forall j | 0 <= j < |rest| :: ms[|ms| - |rest| + j] == Match(rest[j])
    ensures forall i, k | 0 <= i < |ms| && MatchesKey(ms[i], k) :: Has(rest, k)
    ensures ms == [MatchAll] <==> anyValues == [] && rest == []
  {
    var anyClause := if anyValues != [] then [MultiMatch(anyValues)] else [];
    var matches := anyClause + MatchClauses(rest);
    MatchesKeyOnlyRest(anyValues, rest);
    NotMatchAllWhenClauses(anyValues, rest);
    if matches == [] then [MatchAll] else matches
  }

  /** Among the clauses built from `any` and the leftover pairs, a `match` clause
      on `key` comes from a leftover pair with that key. */
  lemma MatchesKeyOnlyRest(anyValues: seq<string>, rest: Params)
    ensures var matches := (if anyValues != [] then [MultiMatch(anyValues)] else []) + MatchClauses(rest);
            forall i, k | 0 <= i < |matches| && MatchesKey(matches[i], k) :: Has(rest, k)
  {
    var anyClause := if anyValues != [] then [MultiMatch(anyValues)] else [];
    var matches := anyClause + MatchClauses(rest);
    NotMatchesKeyOthers(anyValues);
    forall i, k | 0 <= i < |matches| && MatchesKey(matches[i], k)
      ensures Has(rest, k)
    {
      if i >= |anyClause| {
        var j := i - |anyClause|;
        assert matches[i] == Match(rest[j]);
        MatchesKeyOfMatch(rest[j], k);
      }
    }
  }

  /** A non-empty list of built clauses is not the `match_all` fallback. */
  lemma NotMatchAllWhenClauses(anyValues: seq<string>, rest: Params)
    ensures var matches := (if anyValues != [] then [MultiMatch(anyValues)] else []) + MatchClauses(rest);
            matches != [] ==> matches != [MatchAll]
  {
    var anyClause := if anyValues != [] then [MultiMatch(anyValues)] else [];
    var matches := anyClause + MatchClauses(rest);
    if matches != [] {
      if anyValues == [] {
        assert matches[0] == Match(rest[0]);
        MatchIsNotMatchAll(rest[0]);
      } else {
        assert matches[0] == MultiMatch(anyValues);
        assert "match_all" != "multi_match" by { assert "match_all"[1] != "multi_match"[1]; }
        assert "match_all" !in MultiMatch(anyValues).fields;
        assert "match_all" in MatchAll.fields;
      }
      assert matches[0] != MatchAll;
    }
  }

  /** The `must` list of the built query. */
  function MustClauses(params: Params): (ms: seq<Json>)
    ensures |ms| >= 1
    ensures Has(params, "any") ==> ms[0] == MultiMatch(GetAll(params, "any"))
    ensures forall i | 0 <= i < |ms| :: !MatchesKey(ms[i], "any")
  {
    PoppedKeepsOtherKeys(params, "any");
    FirstIsHeadOfGetAll(params, "any");
    var rest := Leftover(params);
    assert !Has(rest, "any");
    MustList(GetAll(Popped(params), "any"), rest)
  }

  /** A `match` clause mentions exactly its own parameter's key. */
  lemma MatchesKeyOfMatch(p: Pair, key: string)
    ensures MatchesKey(Match(p), key) <==> p.0 == key
  {
  }

  /** `multi_match` and `match_all` are not plain `match` clauses. */
  lemma NotMatchesKeyOthers(values: seq<string>)
    ensures forall key :: !MatchesKey(MultiMatch(values), key)
    ensures forall key :: !MatchesKey(MatchAll, key)
  {
    assert "match" != "multi_match" by { assert "match"[1] != "multi_match"[1]; }
    assert "match" != "match_all" by { assert |"match"| != |"match_all"|; }
  }

  lemma MatchIsNotMatchAll(p: Pair)
    ensures Match(p) != MatchAll
  {
    assert "match" != "match_all" by { assert |"match"| != |"match_all"|; }
    assert "match" in Match(p).fields;
  }

  /** Popping the four paging/sorting keys leaves every other key's values alone. */
  lemma PoppedKeepsOtherKeys(params: Params, key: string)
    requires key !in {"offset", "limit", "sort", "order"}
    ensures GetAll(Popped(params), key) == GetAll(params, key)
    ensures Has(Popped(params), key) == Has(params, key)
  {
    var p1 := PopFirst(params, "offset");
    var p2 := PopFirst(p1, "limit");
    var p3 := PopFirst(p2, "sort");
    PopFirstGetAll(params, "offset", key);
    PopFirstGetAll(p1, "limit", key);
    PopFirstGetAll(p2, "sort", key);
    PopFirstGetAll(p3, "order", key);
    FirstIsHeadOfGetAll(params, key);
    FirstIsHeadOfGetAll(Popped(params), key);
  }

  /** The four `pop` calls of `build_query`, in source order, and what they leave. */
  datatype Pops = Pops(offset: Option<string>, limit: Option<string>,
                       sort: Option<string>, order: Option<string>, rest: Params)

  /** Popping `offset`, `limit`, `sort` and `order` one after the other reads each
      key's first value exactly as the untouched parameters hold it. */
  function PopPaging(params: Params): (p: Pops)
    ensures p.offset == First(params, "offset")
    ensures p.limit == First(params, "limit")
    ensures p.sort == First(params, "sort")
    ensures p.order == First(params, "order")
    ensures p.rest == Popped(params)
  {
    var p1 := PopFirst(params, "offset");
    var p2 := PopFirst(p1, "limit");
    var p3 := PopFirst(p2, "sort");
    FirstAfterPop(params, "offset", "limit");
    FirstAfterPop(params, "offset", "sort");
    FirstAfterPop(p1, "limit", "sort");
    FirstAfterPop(params, "offset", "order");
    FirstAfterPop(p1, "limit", "order");
    FirstAfterPop(p2, "sort", "order");
    Pops(First(params, "offset"), First(p1, "limit"), First(p2, "sort"), First(p3, "order"),
         PopFirst(p3, "order"))
  }

  /** The query dict `build_query` hands to `nipsa_filter`, already filtered. */
  function FilteredQuery(from: nat, size: nat, sort: Json, musts: seq<Json>, userId: string): (r: Record)
    ensures r.Keys == {"from", "size", "sort", "query"}
    ensures r["from"] == Int(from) && r["size"] == Int(size) && r["sort"] == sort
    ensures r["query"] == Filtered(BoolClause("should", ShouldClauses(userId)), BoolClause("must", musts))
  {
    var query := map[
      "from" := Int(from),
      "size" := Int(size),
      "sort" := sort,
      "query" := BoolClause("must", musts)];
    NipsaFilter(query, userId).value
  }

  /** `build_query(request_params, user_id)`. */
  function BuildQuery(params: Params, userId: string, parseInt: string -> Option<int>): (r: Record)
    ensures r.Keys == {"from", "size", "sort", "query"}
    ensures r["from"] == Int(Count(First(params, "offset"), 0, parseInt))
    ensures r["size"] == Int(Count(First(params, "limit"), 20, parseInt))
    ensures r["sort"] == SortSpec(First(params, "sort").GetOr("updated"),
                                  First(params, "order").GetOr("desc"))
    ensures r["query"] == Filtered(BoolClause("should", ShouldClauses(userId)),
                                   BoolClause("must", MustClauses(params)))
  {
    var p := PopPaging(params);
    FilteredQuery(Count(p.offset, 0, parseInt), Count(p.limit, 20, parseInt),
                  SortSpec(p.sort.GetOr("updated"), p.order.GetOr("desc")),
                  MustClauses(params), userId)
  }

  /** `index()`: the query for the 20 most recent visible annotations. */
  function IndexQuery(userId: string, parseInt: string -> Option<int>): Record {
    BuildQuery([("limit", "20")], userId, parseInt)
  }

  /** Each of the popped keys occurs at most once, so a single `pop` removes it. */
  predicate SingleValued(params: Params) {
    && |GetAll(params, "offset")| <= 1
    && |GetAll(params, "limit")| <= 1
    && |GetAll(params, "sort")| <= 1
    && |GetAll(params, "order")| <= 1
  }

  /** The reserved parameter names are pairwise distinct strings. */
  lemma ReservedDistinct()
    ensures "offset" != "limit" && "offset" != "sort" && "offset" != "order" && "offset" != "any"
    ensures "limit" != "sort" && "limit" != "order" && "limit" != "any"
    ensures "sort" != "order" && "sort" != "any" && "order" != "any"
  {
    assert "limit"[0] != "order"[0];
  }

  /** With single-valued paging/sorting keys, the leftover parameters are exactly
      the non-reserved ones, in request order. */
  lemma LeftoverSingleValued(params: Params)
    requires SingleValued(params)
    ensures Leftover(params) == DelKeys(params, Reserved)
  {
    ReservedDistinct();
    var p1 := PopFirst(params, "offset");
    PopFirstSingle(params, "offset");
    var p2 := PopFirst(p1, "limit");
    PopStep(params, p1, {"offset"}, "limit");
    assert {"offset"} + {"limit"} == {"offset", "limit"};
    var p3 := PopFirst(p2, "sort");
    PopStep(params, p2, {"offset", "limit"}, "sort");
    assert {"offset", "limit"} + {"sort"} == {"offset", "limit", "sort"};
    var p4 := PopFirst(p3, "order");
    PopStep(params, p3, {"offset", "limit", "sort"}, "order");
    assert p4 == Popped(params);
    DelKeysTwice(params, {"offset", "limit", "sort"} + {"order"}, {"any"});
    assert {"offset", "limit", "sort"} + {"order"} + {"any"} == Reserved;
  }

  /** One more pop of a key that occurs at most once deletes it. */
  lemma PopStep(params: Params, q: Params, done: set<string>, key: string)
    requires q == DelKeys(params, done)
    requires key !in done && |GetAll(params, key)| <= 1
    ensures PopFirst(q, key) == DelKeys(params, done + {key})
  {
    DelKeysGetAll(params, done, key);
    PopFirstSingle(q, key);
    DelKeysTwice(params, done, {key});
  }

  /** A key that was deleted is no longer present. */
  lemma DeletedAbsent(ps: Params, keys: set<string>, k: string)
    requires k in keys
    ensures !Has(DelKeys(ps, keys), k)
  {
  }

  /** With single-valued paging/sorting keys the must-list is built from the `any`
      values and the non-reserved parameters, and no `match` clause mentions a
      reserved key. */
  lemma MustClausesSingleValued(params: Params)
    requires SingleValued(params)
    ensures MustClauses(params) == MustList(GetAll(params, "any"), DelKeys(params, Reserved))
    ensures forall i, k | 0 <= i < |MustClauses(params)| && k in Reserved ::
              !MatchesKey(MustClauses(params)[i], k)
  {
    LeftoverSingleValued(params);
    ReservedDistinct();
    PoppedKeepsOtherKeys(params, "any");
    var rest := DelKeys(params, Reserved);
    forall k | k in Reserved
      ensures !Has(rest, k)
    {
      DeletedAbsent(params, Reserved, k);
    }
  }

  // ---- What the built query admits ----

  /** A list of `match` clauses admits a document exactly when the oracle accepts each. */
  lemma MatchClausesAdmit(rest: Params, doc: Record, text: TextOracle)
    ensures AllAdmit(MatchClauses(rest), doc, text) <==> forall p | p in rest :: text(Match(p), doc)
  {
    var cs := MatchClauses(rest);
    AllAdmitEach(cs, doc, text);
    forall j | 0 <= j < |rest|
      ensures Admits(cs[j], doc, text) == text(Match(rest[j]), doc)
    {
      TextAdmits("match", Single(rest[j].0, Str(rest[j].1)), doc, text);
    }
    if AllAdmit(cs, doc, text) {
      forall p | p in rest
        ensures text(Match(p), doc)
      {
        var j :| 0 <= j < |rest| && rest[j] == p;
        assert Admits(cs[j], doc, text);
      }
    }
  }

  /** A must-list admits a document exactly when the `any` clause (if present) and
      every `match` clause do; an empty search admits everything. */
  lemma MustListAdmits(anyValues: seq<string>, rest: Params, doc: Record, text: TextOracle)
    ensures AllAdmit(MustList(anyValues, rest), doc, text)
        <==> && (anyValues != [] ==> text(MultiMatch(anyValues), doc))
             && (forall p | p in rest :: text(Match(p), doc))
  {
    var anyClause := if anyValues != [] then [MultiMatch(anyValues)] else [];
    var matches := anyClause + MatchClauses(rest);
    MatchClausesAdmit(rest, doc, text);
    if matches == [] {
      assert MustList(anyValues, rest) == [MatchAll];
      MatchAllAdmits(doc, text);
      assert AllAdmit([MatchAll], doc, text) by {
        assert [MatchAll][1..] == [];
      }
    } else {
      assert MustList(anyValues, rest) == matches;
      AllAdmitAppend(anyClause, MatchClauses(rest), doc, text);
      if anyValues != [] {
        TextAdmits("multi_match", MultiMatch(anyValues).fields["multi_match"], doc, text);
        assert anyClause[1..] == [];
      }
    }
  }

  /** Under the evaluator, a built query admits a document exactly when the
      document is visible to the viewer and satisfies the `any` clause (if any)
      and every `match` clause on a non-reserved parameter. */
  lemma BuildQueryAdmits(params: Params, userId: string, parseInt: string -> Option<int>,
                         doc: Record, text: TextOracle)
    requires SingleValued(params)
    ensures Admits(BuildQuery(params, userId, parseInt)["query"], doc, text)
        <==> && Visible(doc, userId)
             && (Has(params, "any") ==> text(MultiMatch(GetAll(params, "any")), doc))
             && (forall p | p in DelKeys(params, Reserved) :: text(Match(p), doc))
  {
    MustClausesSingleValued(params);
    FirstIsHeadOfGetAll(params, "any");
    FilterAdmitsVisible(userId, doc, text);
    FilteredAdmits(BoolClause("should", ShouldClauses(userId)),
                   BoolClause("must", MustClauses(params)), doc, text);
    BoolAdmits(MustClauses(params), doc, text);
    MustListAdmits(GetAll(params, "any"), DelKeys(params, Reserved), doc, text);
  }

  /** A search with nothing to match on (only paging and sorting parameters)
      admits every document visible to the viewer and nothing else. */
  lemma EmptySearchAdmitsVisible(params: Params, userId: string, parseInt: string -> Option<int>,
                                 doc: Record, text: TextOracle)
    requires SingleValued(params)
    requires forall i | 0 <= i < |params| :: params[i].0 in {"offset", "limit", "sort", "order"}
    ensures MustClauses(params) == [MatchAll]
    ensures Admits(BuildQuery(params, userId, parseInt)["query"], doc, text) <==> Visible(doc, userId)
  {
    ReservedDistinct();
    assert !Has(params, "any");
    FirstIsHeadOfGetAll(params, "any");
    NoneLeftOver(params, Reserved);
    MustClausesSingleValued(params);
    BuildQueryAdmits(params, userId, parseInt, doc, text);
  }

  lemma {:induction false} NoneLeftOver(ps: Params, keys: set<string>)
    requires forall i | 0 <= i < |ps| :: ps[i].0 in keys
    ensures DelKeys(ps, keys) == []
  {
    if ps != [] {
      NoneLeftOver(ps[1..], keys);
    }
  }

  /** The index page: offset 0, 20 rows, newest first, everything the viewer may see. */
  lemma IndexQueryShape(userId: string, parseInt: string -> Option<int>, doc: Record, text: TextOracle)
    requires parseInt("20") == Some(20)
    ensures IndexQuery(userId, parseInt)["from"] == Int(0)
    ensures IndexQuery(userId, parseInt)["size"] == Int(20)
    ensures IndexQuery(userId, parseInt)["sort"] == SortSpec("updated", "desc")
    ensures Admits(IndexQuery(userId, parseInt)["query"], doc, text) <==> Visible(doc, userId)
  {
    ReservedDistinct();
    var ps: Params := [("limit", "20")];
    assert ps[1..] == [];
    assert First(ps, "limit") == Some("20");
    assert First(ps, "offset") == None && First(ps, "sort") == None && First(ps, "order") == None;
    assert GetAll(ps, "offset") == [] && GetAll(ps, "sort") == [] && GetAll(ps, "order") == [];
    assert GetAll(ps, "limit") == ["20"];
    EmptySearchAdmitsVisible(ps, userId, parseInt, doc, text);
  }

  // ---- Per-user NIPSA queries ----

  /** `{"query": {"filtered": {"filter": {"bool": {"must": musts}}}}}` */
  function UserFilterQuery(musts: seq<Json>): Record {
    map["query" := FilterOnly(BoolClause("must", musts))]
  }

  /** `query_for_users_annotations(user_id)` */
  function QueryForUsersAnnotations(userId: string): Record {
    UserFilterQuery([Term("user", Str(userId))])
  }

  /** `nipsad_annotations(user_id)`: the user query with the flag term appended. */
  function NipsadAnnotations(userId: string): Record {
    UserFilterQuery([Term("user", Str(userId)), NipsaTerm])
  }

  /** `not_nipsad_annotations(user_id)`: the user query with the negated flag term appended. */
  function NotNipsadAnnotations(userId: string): Record {
    UserFilterQuery([Term("user", Str(userId)), Not(NipsaTerm)])
  }

  /** What a user-filter query admits: every clause of its must-list. */
  lemma UserFilterAdmits(musts: seq<Json>, doc: Record, text: TextOracle)
    ensures Admits(UserFilterQuery(musts)["query"], doc, text) <==> AllAdmit(musts, doc, text)
  {
    FilterOnlyAdmits(BoolClause("must", musts), doc, text);
    BoolAdmits(musts, doc, text);
  }

  /** The user query admits exactly the user's documents. */
  lemma UsersAnnotationsAdmits(userId: string, doc: Record, text: TextOracle)
    ensures Admits(QueryForUsersAnnotations(userId)["query"], doc, text) <==> AuthoredBy(doc, userId)
  {
    var u := Term("user", Str(userId));
    UserFilterAdmits([u], doc, text);
    TermAdmits("user", Str(userId), doc, text);
    AllAdmitPair(u, u, doc, text);
  }

  /** The NIPSA'd-annotations query admits exactly the user's flagged documents. */
  lemma NipsadAdmits(userId: string, doc: Record, text: TextOracle)
    ensures Admits(NipsadAnnotations(userId)["query"], doc, text) <==> AuthoredBy(doc, userId) && Flagged(doc)
  {
    var u := Term("user", Str(userId));
    UserFilterAdmits([u, NipsaTerm], doc, text);
    TermAdmits("user", Str(userId), doc, text);
    TermAdmits(NipsaFlag, Bool(true), doc, text);
    AllAdmitPair(u, NipsaTerm, doc, text);
  }

  /** The non-NIPSA'd-annotations query admits exactly the user's unflagged documents. */
  lemma NotNipsadAdmits(userId: string, doc: Record, text: TextOracle)
    ensures Admits(NotNipsadAnnotations(userId)["query"], doc, text) <==> AuthoredBy(doc, userId) && !Flagged(doc)
  {
    var u := Term("user", Str(userId));
    UserFilterAdmits([u, Not(NipsaTerm)], doc, text);
    TermAdmits("user", Str(userId), doc, text);
    TermAdmits(NipsaFlag, Bool(true), doc, text);
    NotAdmits(NipsaTerm, doc, text);
    AllAdmitPair(u, Not(NipsaTerm), doc, text);
  }

  /** The two NIPSA queries split the user's documents by the flag: every document
      of the user is admitted by exactly one of them, and no other document by either. */
  lemma NipsadPartition(userId: string, doc: Record, text: TextOracle)
    ensures Admits(NipsadAnnotations(userId)["query"], doc, text)
            || Admits(NotNipsadAnnotations(userId)["query"], doc, text)
        <==> Admits(QueryForUsersAnnotations(userId)["query"], doc, text)
    ensures !(Admits(NipsadAnnotations(userId)["query"], doc, text)
              && Admits(NotNipsadAnnotations(userId)["query"], doc, text))
  {
    NipsadAdmits(userId, doc, text);
    NotNipsadAdmits(userId, doc, text);
    UsersAnnotationsAdmits(userId, doc, text);
  }
}

=== FILE: store.dfy ===
/**
 h/api/store.py, the annotator-store side: the hook that anonymises deleted
 annotations before they are stored, the transform `Store.search_raw` applies
 to search hits, and the status rule of `Store._invoke_subrequest`.
 */
module Store {
  import opened Json
  import opened Permissions

  // ---- anonymize_deletes ----

  /** The author `anonymize_deletes` filters by: the `user` entry, or "" when absent. */
  function Author(annotation: Record): Json {
    Get(annotation, "user", Str(""))
  }

  /** `anonymize_deletes(annotation)`: for a record flagged deleted, blank a
      truthy author and drop the author from every permission list. */
  function AnonymizeDeletes(annotation: Record): (r: Result<Record>)
    ensures r.Ok? <==> !Truthy(Get(annotation, "deleted", Bool(false))) || Strippable(annotation)
    ensures !Truthy(Get(annotation, "deleted", Bool(false))) ==> r == Ok(annotation)
    ensures r.Ok? ==> r.value.Keys == annotation.Keys
    ensures r.Ok? ==> forall k | k in annotation && k != "user" && k != "permissions" ::
              r.value[k] == annotation[k]
    ensures r.Ok? && Truthy(Get(annotation, "deleted", Bool(false))) && Truthy(Author(annotation)) ==>
              r.value["user"] == Str("")
    ensures r.Ok? && "user" in annotation && !Truthy(annotation["user"]) ==>
              r.value["user"] == annotation["user"]
    ensures r.Ok? && Truthy(Get(annotation, "deleted", Bool(false))) && "permissions" in annotation ==>
              annotation["permissions"].Obj?
    ensures r.Ok? && Truthy(Get(annotation, "deleted", Bool(false))) && "permissions" in annotation ==>
              var perms := annotation["permissions"].fields;
              && r.value["permissions"].Obj?
              && r.value["permissions"].fields.Keys == perms.Keys
              && (forall a | a in perms :: Iterable(perms[a]))
              && forall a | a in perms ::
                   r.value["permissions"].fields[a] == Arr(Without(Elements(perms[a]), Author(annotation)))
  {
    if !Truthy(Get(annotation, "deleted", Bool(false))) then Ok(annotation)
    else
      var user := Author(annotation);
      var blanked := if Truthy(user) then annotation["user" := Str("")] else annotation;
      RemoveUser(blanked, user)
  }

  /** No permission list holds the empty string (nor does a dict used as one have
      "" as a key). */
  predicate NoBlankRoles(annotation: Record) {
    "permissions" in annotation && annotation["permissions"].Obj? ==>
      && (forall a | a in annotation["permissions"].fields && annotation["permissions"].fields[a].Arr? ::
            Str("") !in annotation["permissions"].fields[a].items)
      && (forall a | a in annotation["permissions"].fields && annotation["permissions"].fields[a].Obj? ::
            "" !in annotation["permissions"].fields[a].fields)
  }

  /** A second run of the hook changes nothing, provided no role was "" to begin with
      (the second run filters by the blanked author ""). */
  lemma AnonymizeDeletesIdempotent(annotation: Record)
    requires NoBlankRoles(annotation)
    requires AnonymizeDeletes(annotation).Ok?
    ensures AnonymizeDeletes(AnonymizeDeletes(annotation).value) == AnonymizeDeletes(annotation)
  {
    var r := AnonymizeDeletes(annotation).value;
    if Truthy(Get(annotation, "deleted", Bool(false))) {
      var user := Author(annotation);
      var again := Author(r);
      AuthorAfter(annotation);
      if "permissions" in annotation {
        var perms := annotation["permissions"].fields;
        var stripped := r["permissions"].fields;
        forall a | a in stripped
          ensures stripped[a].Arr? && again !in stripped[a].items
        {
          if perms[a].Str? {
            CharElements(perms[a]);
          } else if perms[a].Obj? {
            KeyElements(perms[a]);
          }
          StrippedLacks(perms[a], user, again);
        }
      }
      RemoveUserNoop(r, again);
    }
  }

  /** After the hook the author is falsy: either the original falsy author or "". */
  lemma AuthorAfter(annotation: Record)
    requires Truthy(Get(annotation, "deleted", Bool(false)))
    requires AnonymizeDeletes(annotation).Ok?
    ensures var again := Author(AnonymizeDeletes(annotation).value);
            && !Truthy(again)
            && (again == Author(annotation) || again == Str(""))
            && (if Truthy(again) then AnonymizeDeletes(annotation).value["user" := Str("")]
                else AnonymizeDeletes(annotation).value) == AnonymizeDeletes(annotation).value
  {
  }

  // ---- search_raw ----

  /** A hit `search_raw` can turn into a record: a dict with an `_id` and a dict `_source`. */
  predicate GoodHit(hit: Json) {
    hit.Obj? && "_id" in hit.fields && "_source" in hit.fields && hit.fields["_source"].Obj?
  }

  /** The record for a good hit: its source with `id` set to the hit's `_id`. */
  function SourceWithId(hit: Json): Record
    requires GoodHit(hit)
  {
    hit.fields["_source"].fields["id" := hit.fields["_id"]]
  }

  /** `res["_source"]["id"] = res["_id"]` for one hit. Python evaluates the right-hand
      side first, so a missing `_id` is reported before a missing `_source`. */
  function HitRecord(hit: Json): (r: Result<Record>)
    ensures r.Ok? <==> GoodHit(hit)
    ensures r.Ok? ==> r.value == SourceWithId(hit)
    ensures hit.Obj? && "_id" !in hit.fields ==> r == Raise(KeyError("_id"))
    ensures hit.Obj? && "_id" in hit.fields && "_source" !in hit.fields ==> r == Raise(KeyError("_source"))
  {
    match Subscript(hit, "_id")
    case Raise(f) => Raise(f)
    case Ok(id) =>
      match Subscript(hit, "_source")
      case Raise(f) => Raise(f)
      case Ok(Obj(source)) => Ok(source["id" := id])
      case Ok(_) => Raise(TypeError)
  }

  /** The loop over the hits: one record per hit, in hit order, or the exception the
      first bad hit raises. */
  function HitRecords(hits: seq<Json>): (r: Result<seq<Record>>)
    ensures r.Ok? <==> forall i | 0 <= i < |hits| :: GoodHit(hits[i])
    ensures r.Ok? ==> |r.value| == |hits| && forall i | 0 <= i < |hits| :: r.value[i] == SourceWithId(hits[i])
    ensures !r.Ok? ==> exists i | 0 <= i < |hits| ::
              && (forall j | 0 <= j < i :: GoodHit(hits[j]))
              && HitRecord(hits[i]) == Raise(r.fault)
  {
    if hits == [] then Ok([])
    else
      match HitRecord(hits[0])
      case Raise(f) => Raise(f)
      case Ok(first) =>
        var rest := HitRecords(hits[1..]);
        assert forall i | 1 <= i < |hits| :: hits[i] == hits[1..][i - 1];
        match rest
        case Raise(f) =>
          ghost var k :| 0 <= k < |hits[1..]| && (forall j | 0 <= j < k :: GoodHit(hits[1..][j]))
                         && HitRecord(hits[1..][k]) == Raise(f);
          assert HitRecord(hits[k + 1]) == Raise(f);
          Raise(f)
        case Ok(records) => Ok([first] + records)
  }

  /** `Store.search_raw` after the payload is decoded: `payload['hits']['hits']`,
      iterated. An empty string or dict iterates to nothing; a non-empty one
      yields strings, which cannot be indexed by "_id". */
  function SearchRaw(payload: Json): (r: Result<seq<Record>>)
    ensures r.Ok? ==> payload.Obj? && "hits" in payload.fields
    ensures (payload.Obj? && "hits" in payload.fields && payload.fields["hits"].Obj?
             && "hits" in payload.fields["hits"].fields && payload.fields["hits"].fields["hits"].Arr?)
            ==> r == HitRecords(payload.fields["hits"].fields["hits"].items)
    ensures payload.Obj? && "hits" !in payload.fields ==> r == Raise(KeyError("hits"))
  {
    match Subscript(payload, "hits")
    case Raise(f) => Raise(f)
    case Ok(outer) =>
      match Subscript(outer, "hits")
      case Raise(f) => Raise(f)
      case Ok(Arr(items)) => HitRecords(items)
      case Ok(Str(s)) => if s == [] then Ok([]) else Raise(TypeError)
      case Ok(Obj(m)) => if m == map[] then Ok([]) else Raise(TypeError)
      case Ok(_) => Raise(TypeError)
  }

  // ---- _invoke_subrequest ----

  /** `_invoke_subrequest`: a response whose status exceeds 400 is raised as the
      matching HTTP exception; any other response is handed back. */
  function InvokeSubrequest(status: int): (r: Result<int>)
    ensures r.Ok? <==> status <= 400
    ensures r.Ok? ==> r.value == status
    ensures !r.Ok? ==> r.fault == HttpError(status)
  {
    if status > 400 then Raise(HttpError(status)) else Ok(status)
  }

  /** The cut-off sits above 400: a 400 response is returned, a 401 is raised, and
      whatever is returned, every smaller status is returned too. */
  lemma SubrequestCutOff(status: int, smaller: int)
    requires smaller <= status
    ensures InvokeSubrequest(400) == Ok(400)
    ensures InvokeSubrequest(401) == Raise(HttpError(401))
    ensures InvokeSubrequest(status).Ok? ==> InvokeSubrequest(smaller).Ok?
  {
  }
}

=== FILE: views.dfy ===
/**
 h/api/views.py: the annotation CRUD views and the mutation rules behind them.
 Persistence and event publication are collaborator calls; the model records
 them, in order, in a trace, so that each view is a transition from one trace to
 the next. The authenticated user, NIPSA membership and the admin-permission
 decision are inputs.
 */
module Views {
  import opened Json
  import opened Permissions

  /** Fields a client may never set. */
  const ProtectedFields: seq<string> := ["created", "updated", "user", "consumer", "id"]

  const NoPayload: string := "No JSON payload sent. Annotation not created."

  const NotAuthorized: string := "Not authorized to change annotation permissions."

  /** The authenticated user: their id and their API consumer's key. */
  datatype User = User(id: string, consumerKey: string)

  // ---- Mutation rules ----

  /** The payload after `fields.pop(field, None)` for every protected field. */
  function StripProtected(fields: Record): (r: Record)
    ensures forall k :: k in r <==> k in fields && k !in ProtectedFields
    ensures forall k | k in r :: r[k] == fields[k]
  {
    map k | k in fields && k !in ProtectedFields :: fields[k]
  }

  /** `_create_annotation`: the stripped payload, with author and consumer forced
      and the NIPSA flag set when the author is on the NIPSA list. */
  function CreateAnnotation(fields: Record, user: User, nipsa: set<string>): (a: Record)
    ensures forall k | k in ProtectedFields && k != "user" && k != "consumer" :: k !in a
    ensures "user" in a && a["user"] == Str(user.id)
    ensures "consumer" in a && a["consumer"] == Str(user.consumerKey)
    ensures user.id in nipsa ==> NipsaFlag in a && a[NipsaFlag] == Bool(true)
    ensures forall k | k in fields && k !in ProtectedFields && !(k == NipsaFlag && user.id in nipsa) ::
              k in a && a[k] == fields[k]
    ensures forall k | k in a :: k in fields || k == "user" || k == "consumer" || k == NipsaFlag
    ensures user.id !in nipsa ==> (NipsaFlag in a <==> NipsaFlag in fields)
  {
    var a := StripProtected(fields)["user" := Str(user.id)]["consumer" := Str(user.consumerKey)];
    if user.id in nipsa then a[NipsaFlag := Bool(true)] else a
  }

  /** The payload carries a `permissions` value other than the current one
      (a missing `permissions` counts as `{}`). */
  predicate ChangingPermissions(annotation: Record, fields: Record) {
    "permissions" in fields && fields["permissions"] != Get(annotation, "permissions", EmptyObj)
  }

  /** `_anonymize_deletes` as written: `annotation.pop('user')` has no default, so a
      record without an author raises KeyError. */
  function AnonymizeDeletesAsWritten(annotation: Record): (r: Result<Record>)
    ensures r == Raise(KeyError("user")) <==> "user" !in annotation
    ensures r.Ok? <==> "user" in annotation && Strippable(annotation)
    ensures r.Raise? && "user" in annotation ==> r.fault in {TypeError, AttributeError, Unmodelled}
    ensures r.Ok? ==> r.value.Keys == annotation.Keys - {"user"}
    ensures r.Ok? ==> forall k | k in annotation && k != "user" && k != "permissions" ::
              r.value[k] == annotation[k]
    ensures r.Ok? && "permissions" in annotation ==>
              var perms := annotation["permissions"].fields;
              && r.value["permissions"].Obj?
              && r.value["permissions"].fields.Keys == perms.Keys
              && forall a | a in perms ::
                   r.value["permissions"].fields[a] == Arr(Without(Elements(perms[a]), annotation["user"]))
  {
    if "user" !in annotation then Raise(KeyError("user"))
    else RemoveUser(annotation - {"user"}, annotation["user"])
  }

  /** `_anonymize_deletes` as its comment describes it ("delete the author, if
      present"): `pop('user', None)`. The author key goes, and the author is
      dropped from every permission list; nothing else changes. */
  function AnonymizeDeletes(annotation: Record): (r: Result<Record>)
    ensures r.Ok? <==> Strippable(annotation)
    ensures r.Ok? ==> r.value.Keys == annotation.Keys - {"user"}
    ensures r.Ok? ==> forall k | k in annotation && k != "user" && k != "permissions" ::
              r.value[k] == annotation[k]
    ensures r.Ok? && "permissions" in annotation ==> annotation["permissions"].Obj?
    ensures r.Ok? && "permissions" in annotation ==>
              var perms := annotation["permissions"].fields;
              && r.value["permissions"].Obj?
              && r.value["permissions"].fields.Keys == perms.Keys
              && (forall a | a in perms :: Iterable(perms[a]))
              && forall a | a in perms ::
                   r.value["permissions"].fields[a]
                     == Arr(Without(Elements(perms[a]), Get(annotation, "user", Null)))
    ensures !r.Ok? ==> "permissions" in annotation && r.fault in {TypeError, AttributeError, Unmodelled}
  {
    RemoveUser(annotation - {"user"}, Get(annotation, "user", Null))
  }

  /** The record is flagged deleted once the payload has been merged in. */
  predicate DeletedAfterMerge(annotation: Record, fields: Record) {
    Truthy(Get(annotation + StripProtected(fields), "deleted", Bool(false)))
  }

  /** `_update_annotation`: refuse a permissions change without admin, otherwise
      overwrite the stored fields with the payload's and anonymise a deleted record
      with `_anonymize_deletes` as written. The author is a protected field, so the
      merged record has a `user` exactly when the stored one does. */
  function UpdateAnnotation(annotation: Record, fields: Record, isAdmin: bool): (r: Result<Record>)
    ensures r == Raise(RuntimeError(NotAuthorized, 401))
        <==> ChangingPermissions(annotation, StripProtected(fields)) && !isAdmin
    ensures !(ChangingPermissions(annotation, StripProtected(fields)) && !isAdmin) && !DeletedAfterMerge(annotation, fields)
            ==> r.Ok?
    ensures r.Raise? && r.fault.RuntimeError? ==> r == Raise(RuntimeError(NotAuthorized, 401))
    ensures r.Ok? && !DeletedAfterMerge(annotation, fields) ==>
              && r.value.Keys == annotation.Keys + StripProtected(fields).Keys
              && (forall k | k in fields && k !in ProtectedFields :: r.value[k] == fields[k])
              && (forall k | k in annotation && (k !in fields || k in ProtectedFields) ::
                    r.value[k] == annotation[k])
    ensures !(ChangingPermissions(annotation, StripProtected(fields)) && !isAdmin)
            && DeletedAfterMerge(annotation, fields) ==>
              && (r == Raise(KeyError("user")) <==> "user" !in annotation)
              && (r.Ok? <==> "user" in annotation && Strippable(annotation + StripProtected(fields)))
    ensures r.Ok? && DeletedAfterMerge(annotation, fields) ==>
              var merged := annotation + StripProtected(fields);
              && r.value.Keys == merged.Keys - {"user"}
              && (forall k | k in merged && k != "user" && k != "permissions" :: r.value[k] == merged[k])
              && ("permissions" in merged ==>
                    && r.value["permissions"].Obj?
                    && r.value["permissions"].fields.Keys == merged["permissions"].fields.Keys
                    && forall a | a in merged["permissions"].fields ::
                         r.value["permissions"].fields[a]
                           == Arr(Without(Elements(merged["permissions"].fields[a]), annotation["user"])))
  {
    var f := StripProtected(fields);
    if ChangingPermissions(annotation, f) && !isAdmin then
      Raise(RuntimeError(NotAuthorized, 401))
    else
      var merged := annotation + f;
      assert ("user" in merged <==> "user" in annotation) && ("user" in merged ==> merged["user"] == annotation["user"]);
      if Truthy(Get(merged, "deleted", Bool(false))) then AnonymizeDeletesAsWritten(merged)
      else Ok(merged)
  }

  /** `_update_annotation` with the corrected anonymiser: the same refusal and merge,
      and a deleted record without an author is saved instead of crashing. */
  function UpdateAnnotationIntended(annotation: Record, fields: Record, isAdmin: bool): (r: Result<Record>)
    ensures r == Raise(RuntimeError(NotAuthorized, 401))
        <==> ChangingPermissions(annotation, StripProtected(fields)) && !isAdmin
    ensures r.Raise? ==> !r.fault.KeyError?
    ensures !(ChangingPermissions(annotation, StripProtected(fields)) && !isAdmin) ==>
              (r.Ok? <==> !DeletedAfterMerge(annotation, fields) || Strippable(annotation + StripProtected(fields)))
    ensures r.Ok? && DeletedAfterMerge(annotation, fields) ==>
              r.value.Keys == (annotation + StripProtected(fields)).Keys - {"user"}
  {
    var f := StripProtected(fields);
    if ChangingPermissions(annotation, f) && !isAdmin then
      Raise(RuntimeError(NotAuthorized, 401))
    else
      var merged := annotation + f;
      if Truthy(Get(merged, "deleted", Bool(false))) then AnonymizeDeletes(merged)
      else Ok(merged)
  }

  /** `_api_error`: the failure body. */
  function ApiError(reason: string): (body: Json)
    ensures body.Obj? && body.fields.Keys == {"status", "reason"}
    ensures body.fields["status"] == Str("failure") && body.fields["reason"] == Str(reason)
  {
    Obj(map["status" := Str("failure"), "reason" := Str(reason)])
  }

  // ---- The views as transitions ----

  datatype Action = Create | Read | Update | Delete

  /** A collaborator call made by a view, in the order it was made. */
  datatype Step =
    | Saved(record: Record)
    | Removed(record: Record)
    | Published(action: Action, record: Record)

  type Trace = seq<Step>

  /** What the client gets: a status and a JSON body, or an unhandled exception. */
  datatype Reply = Reply(status: int, body: Json) | Crashed(fault: Fault)

  datatype Outcome = Outcome(reply: Reply, trace: Trace)

  /** The calls a single successful view makes: the record is persisted (saved or
      removed), then exactly one event about it is published; a read only publishes. */
  predicate Transaction(b: seq<Step>) {
    || (|b| == 1 && b[0].Published? && b[0].action == Read)
    || (&& |b| == 2 && b[1].Published? && b[1].action != Read
        && (if b[1].action == Delete then b[0].Removed? else b[0].Saved?)
        && b[0].record == b[1].record)
  }

  /** A trace made only of whole transactions, one after the other. */
  predicate Protocol(t: Trace)
    decreases |t|
  {
    || t == []
    || (|t| >= 1 && Transaction(t[|t| - 1..]) && Protocol(t[..|t| - 1]))
    || (|t| >= 2 && Transaction(t[|t| - 2..]) && Protocol(t[..|t| - 2]))
  }

  /** The `request.json_body` failure path and the way `fields.pop(field, None)`
      fails on a payload that is not an object. */
  function PayloadFault(body: Json): (f: Fault)
    requires !body.Obj?
    ensures body.Arr? <==> f == TypeError
    ensures !body.Arr? <==> f == AttributeError
  {
    if body.Arr? then TypeError else AttributeError
  }

  /** `create`: `body` is None when the request has no valid JSON payload; `user`
      is what `get_user` returned. */
  function CreateView(t: Trace, body: Option<Json>, user: Option<User>, nipsa: set<string>): (o: Outcome)
    ensures body.None? ==> o == Outcome(Reply(400, ApiError(NoPayload)), t)
    ensures o.reply.Reply? && o.reply.status == 200 <==> body.Some? && body.value.Obj? && user.Some?
    ensures body.Some? && !body.value.Obj? ==> o == Outcome(Crashed(PayloadFault(body.value)), t)
    ensures body.Some? && body.value.Obj? && user.None? ==> o == Outcome(Crashed(AttributeError), t)
    ensures !(o.reply.Reply? && o.reply.status == 200) ==> o.trace == t
    ensures o.reply.Reply? && o.reply.status == 200 ==>
              var a := CreateAnnotation(body.value.fields, user.value, nipsa);
              o.reply.body == Obj(a) && o.trace == t + [Saved(a), Published(Create, a)]
  {
    match body
    case None => Outcome(Reply(400, ApiError(NoPayload)), t)
    case Some(Obj(fields)) =>
      (match user
       case None => Outcome(Crashed(AttributeError), t)
       case Some(u) =>
         var a := CreateAnnotation(fields, u, nipsa);
         Outcome(Reply(200, Obj(a)), t + [Saved(a), Published(Create, a)]))
    case Some(other) => Outcome(Crashed(PayloadFault(other)), t)
  }

  /** `read`: publish, then return the record as stored. */
  function ReadView(t: Trace, context: Record): (o: Outcome)
    ensures o.reply == Reply(200, Obj(context))
    ensures |o.trace| == |t| + 1 && o.trace[..|t|] == t
    ensures o.trace[|t|] == Published(Read, context)
  {
    Outcome(Reply(200, Obj(context)), t + [Published(Read, context)])
  }

  /** `update`: a RuntimeError from the mutation rules becomes an API error
      carrying its reason and status; any other exception propagates. */
  function UpdateView(t: Trace, context: Record, body: Option<Json>, isAdmin: bool): (o: Outcome)
    ensures body.None? ==> o == Outcome(Reply(400, ApiError(NoPayload)), t)
    ensures body.Some? && body.value.Obj? && ChangingPermissions(context, StripProtected(body.value.fields))
            && !isAdmin
            ==> o == Outcome(Reply(401, ApiError(NotAuthorized)), t)
    ensures o.reply.Reply? && o.reply.status == 200 <==>
              body.Some? && body.value.Obj? && UpdateAnnotation(context, body.value.fields, isAdmin).Ok?
    ensures body.Some? && body.value.Obj? && UpdateAnnotation(context, body.value.fields, isAdmin).Raise?
            && !UpdateAnnotation(context, body.value.fields, isAdmin).fault.RuntimeError?
            ==> o == Outcome(Crashed(UpdateAnnotation(context, body.value.fields, isAdmin).fault), t)
    ensures body.Some? && !body.value.Obj? ==> o == Outcome(Crashed(PayloadFault(body.value)), t)
    ensures o.reply.Reply? && o.reply.status != 200 ==>
              body.None? || (body.value.Obj? && ChangingPermissions(context, StripProtected(body.value.fields)) && !isAdmin)
    ensures !(o.reply.Reply? && o.reply.status == 200) ==> o.trace == t
    ensures o.reply.Reply? && o.reply.status == 200 ==>
              var a := UpdateAnnotation(context, body.value.fields, isAdmin).value;
              o.reply.body == Obj(a) && o.trace == t + [Saved(a), Published(Update, a)]
  {
    match body
    case None => Outcome(Reply(400, ApiError(NoPayload)), t)
    case Some(Obj(fields)) =>
      (match UpdateAnnotation(context, fields, isAdmin)
       case Ok(a) => Outcome(Reply(200, Obj(a)), t + [Saved(a), Published(Update, a)])
       case Raise(RuntimeError(reason, status)) => Outcome(Reply(status, ApiError(reason)), t)
       case Raise(f) => Outcome(Crashed(f), t))
    case Some(other) => Outcome(Crashed(PayloadFault(other)), t)
  }

  /** `delete`: read the id, remove the record, publish, confirm. */
  function DeleteView(t: Trace, context: Record): (o: Outcome)
    ensures "id" !in context ==> o == Outcome(Crashed(KeyError("id")), t)
    ensures "id" in context ==>
              && o.reply == Reply(200, Obj(map["id" := context["id"], "deleted" := Bool(true)]))
              && o.trace == t + [Removed(context), Published(Delete, context)]
  {
    if "id" !in context then Outcome(Crashed(KeyError("id")), t)
    else
      var id := context["id"];
      Outcome(Reply(200, Obj(map["id" := id, "deleted" := Bool(true)])),
              t + [Removed(context), Published(Delete, context)])
  }

  // ---- Properties ----

  /** None of the protected fields keeps a client-supplied value on create:
      `created`, `updated` and `id` are dropped, `user` and `consumer` are forced. */
  lemma CreateIgnoresProtected(fields: Record, other: Record, user: User, nipsa: set<string>)
    requires forall k | k !in ProtectedFields :: (k in fields <==> k in other)
    requires forall k | k in fields && k !in ProtectedFields :: fields[k] == other[k]
    ensures CreateAnnotation(fields, user, nipsa) == CreateAnnotation(other, user, nipsa)
  {
    assert StripProtected(fields) == StripProtected(other);
  }

  /** Resending the current permissions needs no admin permission. */
  lemma SamePermissionsAllowed(annotation: Record, fields: Record)
    requires "permissions" in fields
    requires fields["permissions"] == Get(annotation, "permissions", EmptyObj)
    ensures UpdateAnnotation(annotation, fields, false) != Raise(RuntimeError(NotAuthorized, 401))
  {
    assert !ChangingPermissions(annotation, StripProtected(fields));
  }

  /** An admin is never refused on permission grounds. */
  lemma AdminNeverRefused(annotation: Record, fields: Record)
    ensures !UpdateAnnotation(annotation, fields, true).Raise? ||
            !UpdateAnnotation(annotation, fields, true).fault.RuntimeError?
  {
  }

  /** The corrected update differs from the one as written only on a stored record
      without an author that ends up flagged deleted. */
  lemma UpdateIntendedAgrees(annotation: Record, fields: Record, isAdmin: bool)
    ensures "user" in annotation ==>
              UpdateAnnotationIntended(annotation, fields, isAdmin) == UpdateAnnotation(annotation, fields, isAdmin)
    ensures UpdateAnnotationIntended(annotation, fields, isAdmin) != UpdateAnnotation(annotation, fields, isAdmin) ==>
              && "user" !in annotation
              && DeletedAfterMerge(annotation, fields)
              && UpdateAnnotation(annotation, fields, isAdmin) == Raise(KeyError("user"))
  {
    var merged := annotation + StripProtected(fields);
    if "user" in annotation {
      assert "user" in merged;
      AnonymizeDeletesAgrees(merged);
    }
  }

  /** Updating a deleted record that was already anonymised: the view as written
      crashes with KeyError and makes no call, where the corrected rules save it. */
  lemma UpdateOfAnonymisedCrashes(isAdmin: bool)
    ensures var context := map["id" := Str("a1"), "deleted" := Bool(true)];
            var body := Obj(map["text" := Str("x")]);
            && UpdateView([], context, Some(body), isAdmin) == Outcome(Crashed(KeyError("user")), [])
            && UpdateAnnotationIntended(context, body.fields, isAdmin).Ok?
  {
    var context := map["id" := Str("a1"), "deleted" := Bool(true)];
    var fields := map["text" := Str("x")];
    assert !ChangingPermissions(context, StripProtected(fields));
    assert DeletedAfterMerge(context, fields);
    assert Strippable(context + StripProtected(fields));
  }

  /** The corrected anonymiser agrees with the source wherever the source does not
      raise, and never raises KeyError. */
  lemma AnonymizeDeletesAgrees(annotation: Record)
    ensures "user" in annotation ==> AnonymizeDeletes(annotation) == AnonymizeDeletesAsWritten(annotation)
    ensures !AnonymizeDeletes(annotation).Raise? || !AnonymizeDeletes(annotation).fault.KeyError?
  {
  }

  /** Every record the anonymiser as written produces lacks `user`, so running it
      again raises KeyError: a second update of a deleted record crashes the view. */
  lemma AnonymizeDeletesAsWrittenNotRepeatable(a: Record)
    requires AnonymizeDeletesAsWritten(a).Ok?
    ensures AnonymizeDeletesAsWritten(AnonymizeDeletesAsWritten(a).value) == Raise(KeyError("user"))
  {
  }

  /** No permission list holds a JSON null (the value the corrected anonymiser
      filters by once the author is gone). */
  predicate NoNullRoles(annotation: Record) {
    "permissions" in annotation && annotation["permissions"].Obj? ==>
      forall a | a in annotation["permissions"].fields && annotation["permissions"].fields[a].Arr? ::
        Null !in annotation["permissions"].fields[a].items
  }

  /** The corrected anonymiser can be repeated: a second run changes nothing. */
  lemma AnonymizeDeletesIdempotent(annotation: Record)
    requires NoNullRoles(annotation)
    requires AnonymizeDeletes(annotation).Ok?
    ensures AnonymizeDeletes(AnonymizeDeletes(annotation).value) == AnonymizeDeletes(annotation)
  {
    var r := AnonymizeDeletes(annotation).value;
    var user := Get(annotation, "user", Null);
    assert r - {"user"} == r;
    assert Get(r, "user", Null) == Null;
    if "permissions" in annotation {
      var perms := annotation["permissions"].fields;
      var stripped := r["permissions"].fields;
      forall a | a in stripped
        ensures stripped[a].Arr? && Null !in stripped[a].items
      {
        if perms[a].Str? {
          CharElements(perms[a]);
        }
        StrippedLacks(perms[a], user, Null);
      }
    }
    RemoveUserNoop(r, Null);
  }

  /** Every successful transaction extends a well-formed trace to a well-formed trace. */
  lemma ProtocolExtend(t: Trace, b: seq<Step>)
    requires Protocol(t) && Transaction(b)
    ensures Protocol(t + b)
  {
    var tb := t + b;
    assert tb[..|tb| - |b|] == t;
    assert tb[|tb| - |b|..] == b;
  }

  /** Each view keeps the trace well formed: a successful call appends exactly one
      transaction and a failed one appends nothing. */
  lemma CreateKeepsProtocol(t: Trace, body: Option<Json>, user: Option<User>, nipsa: set<string>)
    requires Protocol(t)
    ensures Protocol(CreateView(t, body, user, nipsa).trace)
  {
    if CreateView(t, body, user, nipsa).trace != t {
      var a := CreateAnnotation(body.value.fields, user.value, nipsa);
      ProtocolExtend(t, [Saved(a), Published(Create, a)]);
    }
  }

  lemma ReadKeepsProtocol(t: Trace, context: Record)
    requires Protocol(t)
    ensures Protocol(ReadView(t, context).trace)
  {
    ProtocolExtend(t, [Published(Read, context)]);
  }

  lemma UpdateKeepsProtocol(t: Trace, context: Record, body: Option<Json>, isAdmin: bool)
    requires Protocol(t)
    ensures Protocol(UpdateView(t, context, body, isAdmin).trace)
  {
    if UpdateView(t, context, body, isAdmin).trace != t {
      var a := UpdateAnnotation(context, body.value.fields, isAdmin).value;
      ProtocolExtend(t, [Saved(a), Published(Update, a)]);
    }
  }

  lemma DeleteKeepsProtocol(t: Trace, context: Record)
    requires Protocol(t)
    ensures Protocol(DeleteView(t, context).trace)
  {
    if "id" in context {
      ProtocolExtend(t, [Removed(context), Published(Delete, context)]);
    }
  }

  /** Every save or removal in `t` is immediately followed by the event about the same record. */
  predicate PersistedThenPublished(t: Trace) {
    forall i | 0 <= i < |t| && !t[i].Published? ::
      i + 1 < |t| && t[i + 1].Published? && t[i + 1].record == t[i].record
  }

  /** Appending a transaction to a trace that ends with an event keeps every
      persisting step paired with its event. */
  lemma PairedAppend(p: Trace, b: seq<Step>)
    requires Transaction(b)
    requires p != [] ==> p[|p| - 1].Published?
    requires PersistedThenPublished(p)
    ensures PersistedThenPublished(p + b)
    ensures (p + b)[|p + b| - 1].Published?
  {
    var t := p + b;
    forall i | 0 <= i < |t| && !t[i].Published?
      ensures i + 1 < |t| && t[i + 1].Published? && t[i + 1].record == t[i].record
    {
      if i < |p| {
        assert t[i] == p[i];
        assert i + 1 < |p|;
        assert t[i + 1] == p[i + 1];
      } else {
        assert t[i] == b[i - |p|];
      }
    }
  }

  /** A non-empty well-formed trace ends with a whole transaction of `k` steps. */
  lemma LastTransaction(t: Trace) returns (k: nat)
    requires Protocol(t) && t != []
    ensures 1 <= k <= |t|
    ensures Transaction(t[|t| - k..]) && Protocol(t[..|t| - k])
  {
    k := if Transaction(t[|t| - 1..]) && Protocol(t[..|t| - 1]) then 1 else 2;
  }

  /** In a well-formed trace every save or removal is immediately followed by the
      event about the same record, and the trace ends with an event. */
  lemma {:induction false} PersistThenPublish(t: Trace)
    requires Protocol(t)
    ensures t != [] ==> t[|t| - 1].Published?
    ensures PersistedThenPublished(t)
    decreases |t|
  {
    if t != [] {
      var k := LastTransaction(t);
      var p, b := t[..|t| - k], t[|t| - k..];
      PersistThenPublish(p);
      PairedAppend(p, b);
      assert p + b == t;
    }
  }
}
